=== FILE: README.md ===
# Content stores: a Dafny model

This project models the core of the Alfresco "content stores" extension: a
content store that names every blob by the digest of its bytes, so that equal
content is stored once, together with the fingerprinting of node content and
the share-tier web script that caches content locally by those fingerprints.

The model is functional. The filesystem is a map from path to bytes, a writer
is an immutable record, and finalizing a write is a function from one state
of writer, filesystem and rollback set to the next. Message digests and their
hex encoding are a function parameter `hash(algorithm, bytes)`; where a proof
needs collision resistance, it is a stated precondition (`Injective`).

Modules, one file each:

- `Wrappers`: `Option` and `Result`.
- `Text`: the parts of `String.split`, `String.join`, `StringUtils.substring`,
  `String.indexOf`, `Long.toString`/`Long.parseLong` and
  `Boolean.parseBoolean` the code relies on, written out with Java's edge
  cases. For example, `split` drops trailing empty fields and returns a
  string without the separator whole.
- `FileSystem`: bytes, paths, the path-to-bytes map.
- `ContentStore`: `HashBasedFileContentStore`. It covers URL parsing
  (`makeFile`), the checksum layout (`createContentUrl`), `getReader` and
  `delete`.
- `ContentWriter`: `HashBasedContentWriter` and `HashBasedFileContentWriter`.
  It covers URL and size reporting, opening the digesting channel, and
  writing through it.
- `Finalization`: both versions of
  `HashBasedWriterStreamListener.contentStreamClosed`. This is where a
  finished temporary file becomes a deduplicated blob.
- `Fingerprints`: `ContentFingerprint` and its two string converters.
- `FingerprintPolicy`: the recomputation of a node's fingerprint list when a
  content property changes.
- `CachingStream`: the pure decisions of `CachingContentStream`. These are
  request parameters, the repository check, cache file names, lookup and
  expiry, filling the cache, the 304 decision, response headers and the
  thumbnail call-through URI.

Two details of the code are modelled as written:

- Both listeners call `digest()` on the writer's message digest before they
  look at the temporary file. A writer without a digest therefore fails,
  modelled as `NullDigest`, even when it has no temporary file either.
- An empty cached file is served with `Content-Range: bytes 0--1/0`
  (`CachingStream.EmptyFileRange`).

The older `HashBasedContentWriter` registers the root-package listener,
which is declared for `HashBasedFileContentWriter`. Here both writer kinds
share one `Writer` record, and the listener version is chosen by the
`rollback` argument of `ContentStreamClosed`. `None` means the root-package
listener, which keeps no rollback set. `Some(set)` means the repository
package's listener, which maintains the transaction's post-rollback deletion
URLs.

Source paths below are relative to the repository root.

## Model

| member | source | states |
|---|---|---|
| ContentStore.ContentUrlParts | repository/src/main/java/org/alfresco/hackathon/HashBasedFileContentStore.java:63-65 | a URL splits at the first "://" into protocol and relative path, which rejoin to the URL; no separator gives no parts |
| ContentStore.StoreUrlParts | repository/src/main/java/org/alfresco/hackathon/HashBasedFileContentStore.java:63-70 | the protocol is "store" exactly when the URL starts with "store://", and the relative path is then the rest of the URL |
| ContentStore.MakeFile | repository/src/main/java/org/alfresco/hackathon/HashBasedFileContentStore.java:60-75 | succeeds iff the URL has the store protocol, giving root joined with the relative path; otherwise UnsupportedContentUrl carrying that URL |
| ContentStore.BlobPath | repository/src/main/java/org/alfresco/hackathon/HashBasedFileContentStore.java:183-186 | the path below the store prefix ends in checksum + ".bin", and its length is fixed by the substrings clamped to the checksum |
| ContentStore.BlobPathLayout | repository/src/main/java/org/alfresco/hackathon/HashBasedFileContentStore.java:183-186 | a checksum of six or more characters gets three levels of two characters each, taken from its start |
| ContentStore.CreateContentUrl | repository/src/main/java/org/alfresco/hackathon/HashBasedFileContentStore.java:182-187 | the URL is the store prefix "store://" followed by the checksum's blob path |
| ContentStore.CreatedUrlResolves | repository/src/main/java/org/alfresco/hackathon/HashBasedFileContentStore.java:182-187 | every created URL is accepted by makeFile and names the checksum's blob file, which lies below the root |
| ContentStore.BlobPathInjective | repository/src/main/java/org/alfresco/hackathon/HashBasedFileContentStore.java:183-186 | distinct checksums never share a blob path |
| ContentStore.CreateContentUrlInjective | repository/src/main/java/org/alfresco/hackathon/HashBasedFileContentStore.java:182-187 | distinct checksums never share a content URL |
| ContentStore.BlobFileInjective | repository/src/main/java/org/alfresco/hackathon/HashBasedFileContentStore.java:72 | distinct checksums never share a blob file |
| ContentStore.SixCharacterBlobPath | repository/src/main/java/org/alfresco/hackathon/HashBasedFileContentStore.java:183-186 | a concrete layout: "aaf4c6" lives at aa/f4/c6/aaf4c6.bin |
| ContentStore.CreateContentUrlSpelled | repository/src/main/java/org/alfresco/hackathon/HashBasedFileContentStore.java:182-187 | a content URL is the literal "store://" followed by the checksum's blob path |
| ContentStore.SixCharacterChecksumUrl | repository/src/main/java/org/alfresco/hackathon/HashBasedFileContentStore.java:182-187 | the same checksum as a URL: store://aa/f4/c6/aaf4c6.bin |
| ContentStore.ShortChecksumBlobPath | repository/src/main/java/org/alfresco/hackathon/HashBasedFileContentStore.java:184-186 | substrings clamp: "abc" gives ab/c//abc.bin, not an error |
| ContentStore.ShortChecksumUrl | repository/src/main/java/org/alfresco/hackathon/HashBasedFileContentStore.java:182-187 | the same short checksum as a URL: store://ab/c//abc.bin |
| ContentStore.EmptyChecksumUrl | repository/src/main/java/org/alfresco/hackathon/HashBasedFileContentStore.java:182-187 | an empty checksum still gives a URL, store://///.bin, with three empty levels |
| ContentStore.GetReader | repository/src/main/java/org/alfresco/hackathon/HashBasedFileContentStore.java:78-115 | null URL and file-layer faults surface as ContentIO; a wrong protocol passes out as UnsupportedContentUrl; otherwise a file reader exactly when the file exists, else an empty reader, for that URL |
| ContentStore.MissingFileReadsEmpty | repository/src/main/java/org/alfresco/hackathon/HashBasedFileContentStore.java:84-93 | a store URL whose file is missing reads as an empty reader with no bytes |
| ContentStore.Delete | repository/src/main/java/org/alfresco/hackathon/HashBasedFileContentStore.java:148-180 | read-only fails first; wrong protocol fails; a missing file counts as deleted with nothing changed; only that file is removed; pruning is requested iff deleteEmptyDirs and deleted, bounded by the root location |
| ContentStore.DeletedUrlReadsEmpty | repository/src/main/java/org/alfresco/hackathon/HashBasedFileContentStore.java:157-163 | once delete reports the file deleted, getReader on the same URL gives an empty reader with no bytes |
| ContentWriter.GetWriterInternal | repository/src/main/java/org/alfresco/hackathon/HashBasedFileContentStore.java:129-142 | the store hands out the older writer with no URL, size 0, no temp file or digest, and the listener without rollback bookkeeping |
| ContentWriter.NewFileWriter | repository/src/main/java/org/alfresco/hackathon/HashBasedFileContentWriter.java:52-58 | the newer writer starts with no URL field, size 0, no temp file or digest, its digest type, and exactly one listener, the root-package one without rollback bookkeeping |
| ContentWriter.ContentUrlLastSet | repository/src/main/java/org/alfresco/hackathon/HashBasedFileContentWriter.java:83-97 | the newer writer reports the placeholder until a URL is set, the older one null; afterwards both report the last URL set |
| ContentWriter.SizeSources | repository/src/main/java/org/alfresco/hackathon/HashBasedFileContentWriter.java:67-81 | the newer writer's size is the temp file's live length while it exists and the recorded size otherwise; the older writer's is always the recorded size |
| ContentWriter.ContentDataFromGetters | repository/src/main/java/org/alfresco/hackathon/HashBasedFileContentWriter.java:60-65 | getContentData reports what the URL, mimetype, size and encoding getters report |
| ContentWriter.OpenChannel | repository/src/main/java/org/alfresco/hackathon/HashBasedFileContentWriter.java:106-122 | opens iff a temp file can be made and the algorithm exists; then temp file and digest are empty and in sync; the temp field is set even when the digest lookup fails; URL, size and listeners untouched |
| ContentWriter.WriteBytes | repository/src/main/java/org/alfresco/hackathon/HashBasedFileContentWriter.java:114 | one write appends the bytes to the temp file and feeds them to the digest, keeping the two in sync and touching no other file |
| ContentWriter.WriteAllAppends | repository/src/main/java/org/alfresco/hackathon/HashBasedFileContentWriter.java:114-116 | after any sequence of writes the temp file and the digest both hold exactly the concatenated bytes, and no other file changed |
| ContentWriter.ReaderBeforeFinalize | repository/src/main/java/org/alfresco/hackathon/HashBasedContentWriter.java:77-81 | before finalize the newer writer's reader is refused (placeholder protocol) and the older writer's null URL fails as ContentIO |
| Finalization.Pending | repository/src/main/java/org/alfresco/hackathon/content/stores/repo/HashBasedWriterStreamListener.java:56-66 | the deletion set loses the writer's previous URL and holds the new URL iff its blob was absent or it was already there and was not the previous URL; every other URL is untouched |
| Finalization.CopyAndRemove | repository/src/main/java/org/alfresco/hackathon/content/stores/repo/HashBasedWriterStreamListener.java:62-84 | the temp file is gone afterwards; an existing blob keeps its bytes; an absent blob gets the temp bytes unless the copy failed or the temp file is missing; no other file changes |
| Finalization.ContentStreamClosed | repository/src/main/java/org/alfresco/hackathon/content/stores/repo/HashBasedWriterStreamListener.java:43-86 | fails iff no digest; no temp file changes nothing; otherwise URL = created URL of the digest, size = temp length, temp removed, an existing blob is kept, a new blob holds the temp bytes unless the copy failed, nothing else changes; the rollback set loses the writer's old URL and gains the new URL iff its blob was absent |
| Finalization.ListenersAgree | repository/src/main/java/org/alfresco/hackathon/HashBasedWriterStreamListener.java:40-78 | the root-package listener leaves writer and filesystem exactly as the repository one does, keeping no rollback set |
| Finalization.EqualDigestsEqualUrls | repository/src/main/java/org/alfresco/hackathon/HashBasedWriterStreamListener.java:46-52 | two finalized writers publish the same URL iff their digests are equal |
| Finalization.ClosePreservesContentAddressing | repository/src/main/java/org/alfresco/hackathon/HashBasedWriterStreamListener.java:52-76 | with a collision-free digest, every blob still holds the bytes its name's digest was taken of after a finalize, copy failure included |
| Finalization.DeletePreservesContentAddressing | repository/src/main/java/org/alfresco/hackathon/HashBasedFileContentStore.java:148-180 | deleting any URL keeps every remaining blob holding the bytes its name's digest was taken of |
| Finalization.ClosedContentReadsBack | repository/src/main/java/org/alfresco/hackathon/HashBasedWriterStreamListener.java:52-71 | round trip: after finalize, reading the published URL yields exactly the bytes written, whether the blob was new or already there |
| Finalization.SecondWriteDeduplicates | repository/src/main/java/org/alfresco/hackathon/content/stores/repo/HashBasedWriterStreamListener.java:59-79 | writing the same bytes again publishes the same URL, creates no file, only removes its own temp file, and never marks the existing blob for rollback deletion |
| Finalization.CopiesCommute | repository/src/main/java/org/alfresco/hackathon/content/stores/repo/HashBasedWriterStreamListener.java:62-84 | two copies of equal bytes into one blob, each removing its own temp file, give the same filesystem in either order |
| Finalization.ClosingCommutes | repository/src/main/java/org/alfresco/hackathon/HashBasedWriterStreamListener.java:52-76 | two sessions finalizing identical bytes leave the same filesystem in either order |
| Fingerprints.Decode | repository/src/main/java/org/alfresco/hackathon/content/stores/repo/ContentFingerprint.java:34-47 | a failed conversion reports the source string |
| Fingerprints.EncodeAsWrittenLosesRecord | repository/src/main/java/org/alfresco/hackathon/content/stores/repo/ContentFingerprint.java:24-29 | the converter as written returns null for every record, and the value it discards decodes to three "%s" fields |
| Fingerprints.Encode | repository/src/main/java/org/alfresco/hackathon/content/stores/repo/ContentFingerprint.java:26-27 | the corrected string form has the three fields plus two separators |
| Fingerprints.DecodeEncode | repository/src/main/java/org/alfresco/hackathon/content/stores/repo/ContentFingerprint.java:34-47 | a well-formed record's string form, with any trailing separators, decodes back to the record |
| Fingerprints.EncodeDecode | repository/src/main/java/org/alfresco/hackathon/content/stores/repo/ContentFingerprint.java:34-47 | whatever decodes is a well-formed record's string form followed only by separators |
| Fingerprints.DecodeTrailingEmptyFails | repository/src/main/java/org/alfresco/hackathon/content/stores/repo/ContentFingerprint.java:36-45 | "p", "a" and an empty digest value, joined by separators, is refused, since split drops the trailing empty field |
| Fingerprints.DecodeEmptyMiddleField | repository/src/main/java/org/alfresco/hackathon/content/stores/repo/ContentFingerprint.java:36-41 | an empty middle field is kept: "p", "" and "h" joined by separators decode with an empty digest type |
| Fingerprints.DecodeTrailingSeparator | repository/src/main/java/org/alfresco/hackathon/content/stores/repo/ContentFingerprint.java:36-41 | a trailing separator after three fields is ignored |
| Text.JavaSplitSpec | repository/src/main/java/org/alfresco/hackathon/content/stores/repo/ContentFingerprint.java:36 | split's parts hold no separator, the last is non-empty unless it is the only one, and joining them gives the input less trailing separators |
| Text.JavaSplitJoin | repository/src/main/java/org/alfresco/hackathon/content/stores/repo/FingerprintPolicy.java:107 | splitting the join of separator-free parts with a non-empty last part, plus trailing separators, gives those parts back |
| FingerprintPolicy.SetDigestTypes | repository/src/main/java/org/alfresco/hackathon/content/stores/repo/FingerprintPolicy.java:103-113 | null or "" configure nothing; otherwise the types contain no comma, the last type is non-empty, and they rejoin to the string less trailing commas, which is exactly String.split(",") |
| FingerprintPolicy.DigestTypesExamples | repository/src/main/java/org/alfresco/hackathon/content/stores/repo/FingerprintPolicy.java:103-113 | "SHA-256,MD5" configures both in order; "," configures none |
| FingerprintPolicy.OnContentPropertyUpdate | repository/src/main/java/org/alfresco/hackathon/content/stores/repo/FingerprintPolicy.java:125-218 | only the SpacesStore is touched; a property without content (getReader gives null) fails with a NullPointerException iff some configured type is available; otherwise the new list is the other properties' prints plus the fresh ones, stored iff non-empty, else the aspect is removed iff present |
| FingerprintPolicy.FreshPrintsSpec | repository/src/main/java/org/alfresco/hackathon/content/stores/repo/FingerprintPolicy.java:159-206 | one fresh print per available configured type, in configuration order, each for the updated property with that type's digest of the content |
| FingerprintPolicy.AvailableTypesMembers | repository/src/main/java/org/alfresco/hackathon/content/stores/repo/FingerprintPolicy.java:163-173 | a type gets a print iff it is configured and its algorithm is available |
| FingerprintPolicy.UpdateIsolation | repository/src/main/java/org/alfresco/hackathon/content/stores/repo/FingerprintPolicy.java:136-204 | after an update of p the other properties' prints are the earlier ones in their order, and p's prints are exactly the fresh ones |
| FingerprintPolicy.UpdateIdempotent | repository/src/main/java/org/alfresco/hackathon/content/stores/repo/FingerprintPolicy.java:150-216 | re-running the update for the same property and content on the resulting node changes nothing |
| FingerprintPolicy.CrossPropertyIsolation | repository/src/main/java/org/alfresco/hackathon/content/stores/repo/FingerprintPolicy.java:149-153 | updating p and then another property q leaves p's prints as the first update made them |
| CachingStream.ReadStreamParameters | share/src/main/java/org/alfresco/hackathon/content/stores/share/web/scripts/CachingContentStream.java:415-450 | succeeds iff storeType, storeId and id are non-empty and a present thumbnailName is non-empty, naming the first missing one; fields copied; attachment iff attach or a parses as true |
| CachingStream.AddDigest | share/src/main/java/org/alfresco/hackathon/content/stores/share/web/scripts/CachingContentStream.java:183-188 | succeeds iff type and value are non-empty, naming the first bad one; then the type maps to the value, other digests and fields unchanged |
| CachingStream.AddDigests | share/src/main/java/org/alfresco/hackathon/content/stores/share/web/scripts/CachingContentStream.java:473-478 | adding a listing succeeds iff every entry has a non-empty type and value, and touches only the digests |
| CachingStream.AddDigestsKeys | share/src/main/java/org/alfresco/hackathon/content/stores/share/web/scripts/CachingContentStream.java:473-478 | afterwards the digest types are the earlier ones plus the listed ones |
| CachingStream.AddDigestsLastWins | share/src/main/java/org/alfresco/hackathon/content/stores/share/web/scripts/CachingContentStream.java:474-478 | a type listed more than once keeps the value of its last listing |
| CachingStream.AddDigestsKeepsUnlisted | share/src/main/java/org/alfresco/hackathon/content/stores/share/web/scripts/CachingContentStream.java:183-188 | an earlier digest whose type is not listed keeps its value |
| CachingStream.AddDigestsValues | share/src/main/java/org/alfresco/hackathon/content/stores/share/web/scripts/CachingContentStream.java:473-478 | after a successful listing each listed type holds the value of its last listing and every earlier digest of an unlisted type keeps its value |
| CachingStream.CheckRepository | share/src/main/java/org/alfresco/hackathon/content/stores/share/web/scripts/CachingContentStream.java:452-492 | a 200 listing sets mimetype, encoding and modified date and leaves every other parameter as it was; its digests are the earlier ones with each listed type mapped to the value of its last listing and every unlisted type unchanged; a bad entry gives 500; another code is passed on as redirect; exceptions give 500 |
| CachingStream.FirstDigestHitFrom | share/src/main/java/org/alfresco/hackathon/content/stores/share/web/scripts/CachingContentStream.java:524-533 | the hit is the first digest in iteration order whose cache file exists, and there is none iff no digest's file exists |
| CachingStream.IdentityHit | share/src/main/java/org/alfresco/hackathon/content/stores/share/web/scripts/CachingContentStream.java:538-551 | the identity file counts iff it exists, the modified date is known and strictly before its lastModified |
| CachingStream.GetCachedFile | share/src/main/java/org/alfresco/hackathon/content/stores/share/web/scripts/CachingContentStream.java:521-565 | the hit is the digest hit, else the identity hit; a positive TTL exceeded deletes that file and misses; a TTL of 0 or less never expires |
| CachingStream.DigestFileHits | share/src/main/java/org/alfresco/hackathon/content/stores/share/web/scripts/CachingContentStream.java:524-535 | with a TTL of zero or less, any existing digest file makes a hit, and the hit is then a digest file, never the identity file |
| CachingStream.ExpiredFirstDigestShadows | share/src/main/java/org/alfresco/hackathon/content/stores/share/web/scripts/CachingContentStream.java:524-562 | with a positive TTL, an expired first existing digest file is deleted and the lookup misses, even when a later digest file is present and fresh |
| CachingStream.IdentityOnlyWithoutDigestHit | share/src/main/java/org/alfresco/hackathon/content/stores/share/web/scripts/CachingContentStream.java:535-562 | with no digest file present there is a hit iff the identity file exists, postdates the modified date and has not expired |
| CachingStream.CacheFileName | share/src/main/java/org/alfresco/hackathon/content/stores/share/web/scripts/CachingContentStream.java:593-607 | the download goes to the identity file when there are no digests, else to one digest's file |
| CachingStream.CacheFile | share/src/main/java/org/alfresco/hackathon/content/stores/share/web/scripts/CachingContentStream.java:567-653 | no redirect iff the download answered 200, and then the file holds it stamped now; another code deletes the file and redirects with it; an exception deletes the chosen file, drops the result and redirects with 500 |
| CachingStream.WholeSecondsBounds | share/src/main/java/org/alfresco/hackathon/content/stores/share/web/scripts/CachingContentStream.java:377 | dropping milliseconds with Java's truncating division lands on a whole second less than a second toward zero |
| CachingStream.NotModifiedSameOrLaterSecond | share/src/main/java/org/alfresco/hackathon/content/stores/share/web/scripts/CachingContentStream.java:360-383 | for a non-negative modified time, 304 iff the header time is positive and in the same or a later second |
| CachingStream.NoNotModifiedWithoutDates | share/src/main/java/org/alfresco/hackathon/content/stores/share/web/scripts/CachingContentStream.java:361-373 | an absent or unparseable header, or an unknown modified date, never gives 304 |
| CachingStream.ContentLength | share/src/main/java/org/alfresco/hackathon/content/stores/share/web/scripts/CachingContentStream.java:679 | the Content-Length value parses back to the size |
| CachingStream.ContentRangeParses | share/src/main/java/org/alfresco/hackathon/content/stores/share/web/scripts/CachingContentStream.java:677-679 | after "bytes 0-" the Content-Range holds the last byte size-1 and, after '/', the size, which is the Content-Length |
| CachingStream.EmptyFileRange | share/src/main/java/org/alfresco/hackathon/content/stores/share/web/scripts/CachingContentStream.java:678 | an empty file gets "bytes 0--1/0" |
| CachingStream.ContentDisposition | share/src/main/java/org/alfresco/hackathon/content/stores/share/web/scripts/CachingContentStream.java:659-672 | set iff attachment; plain "attachment" iff the file name (falling back to the extension path) is absent or empty; otherwise it is the `attachment; filename*=UTF-8''` prefix, then exactly the URL-encoded name, then the quoted name |
| CachingStream.Headers | share/src/main/java/org/alfresco/hackathon/content/stores/share/web/scripts/CachingContentStream.java:655-679 | the streamed headers carry the disposition, the mimetype and encoding, a length that parses to the size, and the range of the size |
| CachingStream.ThumbnailQuery | share/src/main/java/org/alfresco/hackathon/content/stores/share/web/scripts/CachingContentStream.java:703-730 | the query is empty iff neither c nor ph is present, and starts with '?' otherwise |
| CachingStream.ThumbnailQueryJoinsParams | share/src/main/java/org/alfresco/hackathon/content/stores/share/web/scripts/CachingContentStream.java:706-729 | the flag-driven query equals "?" plus the present parameters, c before ph, joined by '&' |
| CachingStream.ThumbnailUri | share/src/main/java/org/alfresco/hackathon/content/stores/share/web/scripts/CachingContentStream.java:694-730 | the call-through URI starts with the node's thumbnail path and ends with the query, with "/" and the URL-encoded file name exactly between them when a name is given |
| CachingStream.Execute | share/src/main/java/org/alfresco/hackathon/content/stores/share/web/scripts/CachingContentStream.java:337-401 | a failed check redirects without touching the cache, except that a 404 for a thumbnail calls through to the thumbnail URI built from the checked parameters; a 304 leaves the cache alone; otherwise a lookup hit is streamed, and on a miss a 200 download streams the new file stamped now, another code or a transfer exception removes just that file from the cache, a connector exception leaves the cache as the lookup left it, and both exceptions send 500; a streamed file is in the cache and carries its size's headers |
| CachingStream.CacheHitSkipsFetch | share/src/main/java/org/alfresco/hackathon/content/stores/share/web/scripts/CachingContentStream.java:386-390 | a cache hit is served whatever the download would have done |
| CachingStream.StoredFileFound | share/src/main/java/org/alfresco/hackathon/content/stores/share/web/scripts/CachingContentStream.java:521-607 | a file stored under the name cacheFile chooses is found by a later lookup within the TTL (for the identity file, once it postdates the modified date) |
| CachingStream.DownloadedContentServedAgain | share/src/main/java/org/alfresco/hackathon/content/stores/share/web/scripts/CachingContentStream.java:386-398 | content downloaded for a request is served from the cache, with the same length and no change, to the same request within the TTL (for the identity file, once the download postdates the modified date) |

## Left out

- Real message digests and hex encoding: a digest is the parameter
  `hash(algorithm, bytes)`, and collision resistance is assumed only where
  a lemma states it (`Injective`).
- File I/O: the filesystem is a map. Directory creation, `deleteOnExit`,
  `FileUtils.deleteQuietly` errors and temp-file naming are not modelled. A
  fresh temp path is an input.
- `Deleter.deleteEmptyParents` is an opaque request (`Prune`). The root
  location that bounds it is a configuration value, because the store does
  not override `getRootLocation`.
- `Finalization.ContentStreamClosed`: a failed copy leaves no target file.
  `FileUtils.copyFile` can leave a partial file behind, and that is not
  modelled.
- `ContentStore.MakeFile`: paths are joined as text, not normalized as
  java.io.File does (repeated '/' collapsed, a trailing '/' dropped, an empty
  child naming the parent), so a hand-written URL such as `store://a//b`
  names a different path here than in the source. The store's own URLs,
  built from hex checksums, contain no such segments.
- `ContentStore.GetReader`: a URL that names a directory reads as a missing
  file (an empty reader), because directories are implicit in the path map;
  `File.exists()` is true for a directory, so the source would return a file
  reader. The store never creates such URLs.
- `ContentStore.Delete`: the same; a URL naming a directory counts as already
  deleted here, where `File.delete()` on a non-empty directory reports false.
- `FileSystem.Child`: the same; `new File(dir, name)` is plain `dir + "/" + name`.
- `Finalization.CopyAndRemove`: the same simplification; a failed copy is
  taken to write nothing.
- AbstractContentStore.getContentUrlParts and AbstractContentWriter are
  not part of this model. URL parts are taken as a split at the first "://",
  with no separator being an unsupported URL. The host's "call listeners
  once" machinery, `getWriter` and the existing-content reader are not
  modelled either.
- Transactions: the post-rollback deletion set is an explicit value.
  Commit, rollback and `TransactionalResourceHelper` are not modelled.
- Concurrency between finalizing sessions is not modelled. Finalize is one
  atomic step (`ClosingCommutes` covers two sequential orders).
- Static converter and datatype registration, the policy binding and
  `afterPropertiesSet` are framework plumbing.
- QName parsing: a property name is an opaque string, so
  `QName.createQName` failures in the decoder are not modelled. Records with
  a null property, which only the serialization constructor creates, are not
  modelled either.
- FingerprintPolicy content digests: a fresh print's value is
  `hash(type, content)` of the whole content. Two things in the source are
  not modelled. The read buffer is 10 << 8 = 2560 bytes, not the 10 KiB the
  comment says. The loop also feeds the whole buffer to the digest,
  whatever `read` returned, so the source's value generally differs from
  the content's digest. Read errors are not modelled either.
- `FingerprintPolicy.Apply`: adding the fingerprints property is taken to
  apply the fingerprint aspect, and removing the aspect is taken to remove
  the property. This is how the node service treats aspect properties. A
  `NullReader` outcome leaves the node as it was: the exception propagates
  out of the policy before the node service is called.
- CachingContentStream: connector and HTTP calls, JSON parsing, the
  repository and content URIs, response streaming and `sendStatus`
  rendering are out. HTTP-date and ISO 8601 parsing are out too: the dates
  arrive as epoch milliseconds, or as unparseable. A failing ISO 8601 parse,
  which would throw out of `execute`, is not modelled.
- `HashMap` iteration order is an input (`order`). Lookup and `cacheFile`
  take the same order for the same digests.
- `URLEncoder.encode` is a function parameter.
- Quota handling is absent in the source (a TODO).
- Long arithmetic is unbounded. `size - 1` and `now - lastModified` cannot
  overflow for real file sizes and clock values.
- `Boolean.parseBoolean` and `equalsIgnoreCase` fold ASCII letters only.
- `ContentStore.IsWriteSupported` is the constant true and has no contract.

## Findings

| source | as written | input that shows it | evidently intended | confidence | as-written member | corrected member |
|---|---|---|---|---|---|---|
| repository/src/main/java/org/alfresco/hackathon/content/stores/repo/ContentFingerprint.java:24-29 | the ContentFingerprint-to-String converter formats a value, discards it and returns null; the value itself uses a "%s" pattern that MessageFormat does not substitute | any record, e.g. (cm:content, SHA-1, aaf4c6) converts to null, and the discarded value is three "%s" joined by the separator | return property, digestType and digestValue joined by the separator character, which the String-to-ContentFingerprint converter decodes back to the record | high, not executed | Fingerprints.EncodeAsWrittenLosesRecord | Fingerprints.DecodeEncode |

=== FILE: caching.dfy ===
/** CachingContentStream: the share-tier web script that serves node content
    from a local file cache keyed by content digests, falling back to a
    node-identity key. Only its decisions are modelled; HTTP, JSON and date
    parsing arrive as already-decoded inputs. */
module CachingStream {
  import opened Wrappers
  import opened Text
  import opened FileSystem

  const CachedSuffix: string := ".bin.cached"
  const StatusOk: int := 200
  const StatusNotModified: int := 304
  const StatusNotFound: int := 404
  const StatusInternalError: int := 500

  /** StreamParams: what the script knows about the requested content.
      `modified` is the repository's modified date as epoch milliseconds. */
  datatype StreamParams = StreamParams(
    storeType: string, storeId: string, id: string,
    property: Option<string>, thumbnailName: Option<string>, fileName: Option<string>,
    extensionPath: Option<string>, digests: map<string, string>, modified: Option<int>,
    mimetype: Option<string>, encoding: Option<string>, attachment: bool)

  /** The IllegalArgumentException of ParameterCheck, naming the parameter. */
  datatype ParamError = MissingParameter(name: string)

  /** ParameterCheck.mandatoryString: neither null nor empty. */
  predicate Mandatory(s: Option<string>) { s.Some? && |s.value| > 0 }

  function Lookup(m: map<string, string>, k: string): (r: Option<string>)
    ensures r.Some? <==> k in m
    ensures r.Some? ==> r.value == m[k]
  {
    if k in m then Some(m[k]) else None
  }

  // ---------------------------------------------------------------------
  // Request parameters

  /** readStreamParameters: the three store/node template variables are
      mandatory, a present thumbnail name must not be empty, and the
      attachment flag is set when `attach` or `a` parses as true. */
  function ReadStreamParameters(vars: map<string, string>, extensionPath: Option<string>,
                                attach: Option<string>, a: Option<string>): (r: Result<StreamParams, ParamError>)
    ensures r.Success? <==>
      && Mandatory(Lookup(vars, "storeType")) && Mandatory(Lookup(vars, "storeId"))
      && Mandatory(Lookup(vars, "id"))
      && ("thumbnailName" in vars ==> vars["thumbnailName"] != "")
    ensures r.Failure? && !Mandatory(Lookup(vars, "storeType")) ==> r.error == MissingParameter("storeType")
    ensures (r.Failure? && Mandatory(Lookup(vars, "storeType")) && !Mandatory(Lookup(vars, "storeId")))
            ==> r.error == MissingParameter("storeId")
    ensures (r.Failure? && Mandatory(Lookup(vars, "storeType")) && Mandatory(Lookup(vars, "storeId"))
             && !Mandatory(Lookup(vars, "id"))) ==> r.error == MissingParameter("id")
    ensures (r.Failure? && Mandatory(Lookup(vars, "storeType")) && Mandatory(Lookup(vars, "storeId"))
             && Mandatory(Lookup(vars, "id"))) ==> r.error == MissingParameter("thumbnailName")
    ensures r.Success? ==>
      && r.value.storeType == vars["storeType"] && r.value.storeId == vars["storeId"] && r.value.id == vars["id"]
      && r.value.thumbnailName == Lookup(vars, "thumbnailName")
      && r.value.fileName == Lookup(vars, "fileName")
      && r.value.extensionPath == extensionPath
      && r.value.property.None? && r.value.digests == map[] && r.value.modified.None?
    ensures r.Success? ==> (r.value.attachment <==> ParseBoolean(attach) || ParseBoolean(a))
  {
    var storeType := Lookup(vars, "storeType");
    var storeId := Lookup(vars, "storeId");
    var id := Lookup(vars, "id");
    if !Mandatory(storeType) then Failure(MissingParameter("storeType"))
    else if !Mandatory(storeId) then Failure(MissingParameter("storeId"))
    else if !Mandatory(id) then Failure(MissingParameter("id"))
    else if "thumbnailName" in vars && !Mandatory(Some(vars["thumbnailName"])) then
      Failure(MissingParameter("thumbnailName"))
    else
      Success(StreamParams(storeType.value, storeId.value, id.value, None, Lookup(vars, "thumbnailName"),
                           Lookup(vars, "fileName"), extensionPath, map[], None, None, None,
                           ParseBoolean(attach) || ParseBoolean(a)))
  }

  /** StreamParams.addDigest: type and value are mandatory strings; the
      digest map then maps the type to the value. */
  function AddDigest(params: StreamParams, digestType: Option<string>, digestValue: Option<string>)
    : (r: Result<StreamParams, ParamError>)
    ensures r.Success? <==> Mandatory(digestType) && Mandatory(digestValue)
    ensures r.Failure? ==> r.error == MissingParameter(if Mandatory(digestType) then "digestValue" else "digestType")
    ensures r.Success? ==>
      && r.value.digests.Keys == params.digests.Keys + {digestType.value}
      && r.value.digests[digestType.value] == digestValue.value
      && (forall k :: k in params.digests && k != digestType.value ==> r.value.digests[k] == params.digests[k])
      && r.value.(digests := params.digests) == params
  {
    if !Mandatory(digestType) then Failure(MissingParameter("digestType"))
    else if !Mandatory(digestValue) then Failure(MissingParameter("digestValue"))
    else Success(params.(digests := params.digests[digestType.value := digestValue.value]))
  }

  /** One fingerprint of the repository's listing. */
  datatype DigestEntry = DigestEntry(digestType: string, digestValue: string)

  /** addDigest for every listed fingerprint in order; the first invalid one
      aborts. */
  function AddDigests(params: StreamParams, entries: seq<DigestEntry>): (r: Result<StreamParams, ParamError>)
    ensures r.Success? <==> forall i :: 0 <= i < |entries| ==> entries[i].digestType != "" && entries[i].digestValue != ""
    ensures r.Success? ==> r.value.(digests := params.digests) == params
    decreases |entries|
  {
    if |entries| == 0 then Success(params)
    else
      var last := entries[|entries| - 1];
      var front := AddDigests(params, entries[..|entries| - 1]);
      if front.Failure? then front
      else AddDigest(front.value, Some(last.digestType), Some(last.digestValue))
  }

  /** The digest types a listing names. */
  function ListedTypes(entries: seq<DigestEntry>): set<string>
  {
    set i | 0 <= i < |entries| :: entries[i].digestType
  }

  lemma ListedTypesSnoc(entries: seq<DigestEntry>)
    requires |entries| > 0
    ensures ListedTypes(entries) == ListedTypes(entries[..|entries| - 1]) + {entries[|entries| - 1].digestType}
  {
    var n := |entries| - 1;
    var front := entries[..n];
    forall t | t in ListedTypes(entries) ensures t in ListedTypes(front) + {entries[n].digestType} {
      var i :| 0 <= i < |entries| && entries[i].digestType == t;
      if i < n { assert front[i] == entries[i]; }
    }
    forall t | t in ListedTypes(front) ensures t in ListedTypes(entries) {
      var i :| 0 <= i < n && front[i].digestType == t;
      assert entries[i] == front[i];
    }
  }

  /** After adding the listing, the digest types are the earlier ones and
      the listed ones. */
  lemma {:induction false} AddDigestsKeys(params: StreamParams, entries: seq<DigestEntry>)
    requires AddDigests(params, entries).Success?
    ensures AddDigests(params, entries).value.digests.Keys == params.digests.Keys + ListedTypes(entries)
    decreases |entries|
  {
    if |entries| > 0 {
      var n := |entries| - 1;
      var last := entries[n];
      var front := AddDigests(params, entries[..n]);
      assert front.Success?;
      AddDigestsKeys(params, entries[..n]);
      var after := AddDigest(front.value, Some(last.digestType), Some(last.digestValue));
      assert AddDigests(params, entries) == after;
      assert after.value.digests.Keys == front.value.digests.Keys + {last.digestType};
      ListedTypesSnoc(entries);
    }
  }

  /** Entry `i` is the last listing of its digest type. */
  predicate IsLastListing(entries: seq<DigestEntry>, i: int)
  {
    0 <= i < |entries| && forall j :: i < j < |entries| ==> entries[j].digestType != entries[i].digestType
  }

  /** A listed type maps to the value of its last listing. */
  lemma {:induction false} AddDigestsLastWins(params: StreamParams, entries: seq<DigestEntry>, i: nat)
    requires AddDigests(params, entries).Success?
    requires IsLastListing(entries, i)
    ensures entries[i].digestType in AddDigests(params, entries).value.digests
    ensures AddDigests(params, entries).value.digests[entries[i].digestType] == entries[i].digestValue
    decreases |entries|
  {
    var n := |entries| - 1;
    if i < n {
      var front := entries[..n];
      assert front[i] == entries[i];
      assert forall j :: i < j < n ==> front[j] == entries[j];
      AddDigestsLastWins(params, front, i);
    }
  }

  /** An earlier digest whose type is not listed keeps its value. */
  lemma {:induction false} AddDigestsKeepsUnlisted(params: StreamParams, entries: seq<DigestEntry>, k: string)
    requires AddDigests(params, entries).Success?
    requires k in params.digests && forall i :: 0 <= i < |entries| ==> entries[i].digestType != k
    ensures k in AddDigests(params, entries).value.digests
    ensures AddDigests(params, entries).value.digests[k] == params.digests[k]
    decreases |entries|
  {
    if |entries| > 0 {
      var n := |entries| - 1;
      assert forall i :: 0 <= i < n ==> entries[..n][i] == entries[i];
      AddDigestsKeepsUnlisted(params, entries[..n], k);
    }
  }

  /** The digests after a listing, value by value: a listed type holds the
      value of its last listing, and an unlisted earlier type keeps its
      value. With AddDigestsKeys this fixes the whole map. */
  lemma AddDigestsValues(params: StreamParams, entries: seq<DigestEntry>)
    requires AddDigests(params, entries).Success?
    ensures var d := AddDigests(params, entries).value.digests;
      forall i {:trigger IsLastListing(entries, i)} :: IsLastListing(entries, i)
        ==> entries[i].digestType in d && d[entries[i].digestType] == entries[i].digestValue
    ensures var d := AddDigests(params, entries).value.digests;
      forall k :: k in params.digests && k !in ListedTypes(entries) ==> k in d && d[k] == params.digests[k]
  {
    forall i | IsLastListing(entries, i)
      ensures entries[i].digestType in AddDigests(params, entries).value.digests
    {
      AddDigestsLastWins(params, entries, i);
    }
    forall i | IsLastListing(entries, i)
      ensures AddDigests(params, entries).value.digests[entries[i].digestType] == entries[i].digestValue
    {
      AddDigestsLastWins(params, entries, i);
    }
    forall k | k in params.digests && k !in ListedTypes(entries)
      ensures k in AddDigests(params, entries).value.digests
      ensures AddDigests(params, entries).value.digests[k] == params.digests[k]
    {
      assert forall i :: 0 <= i < |entries| ==> entries[i].digestType in ListedTypes(entries);
      AddDigestsKeepsUnlisted(params, entries, k);
    }
  }

  // ---------------------------------------------------------------------
  // The repository check

  /** The node's details as the repository's fingerprint script lists them. */
  datatype Listing = Listing(mimetype: string, encoding: string, modified: int, fingerprints: seq<DigestEntry>)

  /** The connector's answer: a status code with, for 200, the parsed body
      (None when it is not the expected JSON), or an exception. */
  datatype RepoReply = RepoReply(code: int, body: Option<Listing>) | ConnectorError

  datatype Checked = Checked(params: StreamParams, redirect: Option<int>)

  /** checkRepository: a 200 reply fills in the content details and
      digests; any other code is passed on as a redirect, and any exception
      becomes a 500 redirect. */
  function CheckRepository(params: StreamParams, reply: RepoReply): (r: Checked)
    ensures reply.ConnectorError? ==> r.redirect == Some(StatusInternalError)
    ensures reply.RepoReply? && reply.code != StatusOk ==> r.redirect == Some(reply.code) && r.params == params
    ensures reply.RepoReply? && reply.code == StatusOk && reply.body.None? ==> r.redirect == Some(StatusInternalError)
    ensures reply.RepoReply? && reply.code == StatusOk && reply.body.Some? ==>
      var listing := reply.body.value;
      && (r.redirect.None? <==> AddDigests(params, listing.fingerprints).Success?)
      && (r.redirect.Some? ==> r.redirect == Some(StatusInternalError))
      && (r.redirect.None? ==>
            && r.params.mimetype == Some(listing.mimetype) && r.params.encoding == Some(listing.encoding)
            && r.params.modified == Some(listing.modified)
            && r.params.digests.Keys == params.digests.Keys + ListedTypes(listing.fingerprints)
            && r.params.(mimetype := params.mimetype, encoding := params.encoding, modified := params.modified,
                         digests := params.digests) == params)
    ensures reply.RepoReply? && reply.code == StatusOk && reply.body.Some? && r.redirect.None? ==>
      var fps := reply.body.value.fingerprints;
      && (forall i {:trigger IsLastListing(fps, i)} :: IsLastListing(fps, i)
            ==> fps[i].digestType in r.params.digests && r.params.digests[fps[i].digestType] == fps[i].digestValue)
      && (forall k :: k in params.digests && k !in ListedTypes(fps) ==>
            k in r.params.digests && r.params.digests[k] == params.digests[k])
    ensures r.params.thumbnailName == params.thumbnailName
  {
    match reply
    case ConnectorError => Checked(params, Some(StatusInternalError))
    case RepoReply(code, body) =>
      if code != StatusOk then Checked(params, Some(code))
      else if body.None? then Checked(params, Some(StatusInternalError))
      else
        var listing := body.value;
        var described := params.(mimetype := Some(listing.mimetype), encoding := Some(listing.encoding),
                                 modified := Some(listing.modified));
        var added := AddDigests(described, listing.fingerprints);
        if added.Failure? then Checked(described, Some(StatusInternalError))
        else
          AddDigestsKeys(described, listing.fingerprints);
          AddDigestsValues(described, listing.fingerprints);
          Checked(added.value, None)
  }

  // ---------------------------------------------------------------------
  // Cache file names and lookup

  /** A cached file: its length and its lastModified time. */
  datatype CachedFile = CachedFile(size: nat, lastModified: int)

  /** The local cache directory's files. */
  type CacheDir = map<Path, CachedFile>

  /** MessageFormat renders a null argument as "null". */
  function FormatArg(s: Option<string>): string
  {
    if s.Some? then s.value else "null"
  }

  /** `<dir>/<digestType>/<digestValue>.bin.cached`. */
  function DigestCacheFile(dir: Path, digestType: string, digestValue: string): Path
  {
    Child(Child(dir, digestType), digestValue + CachedSuffix)
  }

  /** `<dir>/<storeType>+<storeId>+<id>+<property>.bin.cached`. */
  function IdentityCacheFile(dir: Path, params: StreamParams): Path
  {
    Child(dir, params.storeType + "+" + params.storeId + "+" + params.id + "+" + FormatArg(params.property) + CachedSuffix)
  }

  /** An iteration order of a digest map: exactly its keys. HashMap's order
      is unspecified, so operations take it as an input. */
  predicate IsKeyOrder(order: seq<string>, digests: map<string, string>)
  {
    (forall k :: k in order ==> k in digests) && (forall k :: k in digests ==> k in order)
  }

  /** The digest file of the i-th key in iteration order. */
  function OrderedDigestFile(dir: Path, digests: map<string, string>, order: seq<string>, i: nat): Path
    requires i < |order| && order[i] in digests
  {
    DigestCacheFile(dir, order[i], digests[order[i]])
  }

  /** The first digest, from position `from` of the iteration order on,
      whose cache file exists. */
  function FirstDigestHitFrom(dir: Path, cache: CacheDir, digests: map<string, string>, order: seq<string>, from: nat)
    : (r: Option<Path>)
    requires from <= |order|
    requires forall i :: 0 <= i < |order| ==> order[i] in digests
    ensures r.None? <==> forall i :: from <= i < |order| ==> OrderedDigestFile(dir, digests, order, i) !in cache
    ensures r.Some? ==> exists i :: from <= i < |order| && r.value == OrderedDigestFile(dir, digests, order, i)
                          && (forall j :: from <= j < i ==> OrderedDigestFile(dir, digests, order, j) !in cache)
    ensures r.Some? ==> r.value in cache
    decreases |order| - from
  {
    if from == |order| then None
    else if OrderedDigestFile(dir, digests, order, from) in cache then Some(OrderedDigestFile(dir, digests, order, from))
    else FirstDigestHitFrom(dir, cache, digests, order, from + 1)
  }

  /** The first digest, in iteration order, whose cache file exists. */
  function FirstDigestHit(dir: Path, cache: CacheDir, digests: map<string, string>, order: seq<string>)
    : (r: Option<Path>)
    requires forall i :: 0 <= i < |order| ==> order[i] in digests
  {
    FirstDigestHitFrom(dir, cache, digests, order, 0)
  }

  /** The identity file counts only when the modified date is known and
      strictly before the file's lastModified. */
  function IdentityHit(dir: Path, cache: CacheDir, params: StreamParams): (r: Option<Path>)
    ensures r.Some? <==>
      var f := IdentityCacheFile(dir, params);
      f in cache && params.modified.Some? && params.modified.value < cache[f].lastModified
    ensures r.Some? ==> r.value == IdentityCacheFile(dir, params)
  {
    var f := IdentityCacheFile(dir, params);
    if f in cache && params.modified.Some? && params.modified.value < cache[f].lastModified then Some(f) else None
  }

  datatype CacheLookup = CacheLookup(hit: Option<Path>, cache: CacheDir)

  predicate Expired(entry: CachedFile, ttl: int, now: int)
  {
    ttl > 0 && now - entry.lastModified > ttl
  }

  /** getCachedFile: a digest hit first, else a fresh identity file; with a
      positive TTL a hit older than the TTL is deleted and is a miss. */
  function GetCachedFile(dir: Path, cache: CacheDir, params: StreamParams, order: seq<string>, ttl: int, now: int)
    : (r: CacheLookup)
    requires IsKeyOrder(order, params.digests)
    ensures var candidate := if FirstDigestHit(dir, cache, params.digests, order).Some?
                             then FirstDigestHit(dir, cache, params.digests, order)
                             else IdentityHit(dir, cache, params);
      && (r.hit.Some? ==> r.hit == candidate && !Expired(cache[r.hit.value], ttl, now) && r.cache == cache)
      && (r.hit.None? && candidate.None? ==> r.cache == cache)
      && (r.hit.None? && candidate.Some? ==> Expired(cache[candidate.value], ttl, now)
                                             && r.cache == cache - {candidate.value})
    ensures r.hit.Some? ==> r.hit.value in r.cache
    ensures ttl <= 0 ==> r.cache == cache
  {
    var digestHit := FirstDigestHit(dir, cache, params.digests, order);
    var candidate := if digestHit.Some? then digestHit else IdentityHit(dir, cache, params);
    if candidate.Some? && Expired(cache[candidate.value], ttl, now) then CacheLookup(None, cache - {candidate.value})
    else CacheLookup(candidate, cache)
  }

  /** With no expiry (a TTL of zero or less), any existing digest file makes
      a hit, and a digest file is preferred over the identity file. */
  lemma DigestFileHits(dir: Path, cache: CacheDir, params: StreamParams, order: seq<string>, ttl: int, now: int, k: string)
    requires IsKeyOrder(order, params.digests)
    requires k in params.digests && DigestCacheFile(dir, k, params.digests[k]) in cache
    requires ttl <= 0
    ensures var r := GetCachedFile(dir, cache, params, order, ttl, now);
      && r.hit.Some?
      && (exists k' :: k' in params.digests && r.hit.value == DigestCacheFile(dir, k', params.digests[k']))
  {
    var i :| 0 <= i < |order| && order[i] == k;
    assert OrderedDigestFile(dir, params.digests, order, i) in cache;
    var hit := FirstDigestHit(dir, cache, params.digests, order);
    var j :| 0 <= j < |order| && hit.value == OrderedDigestFile(dir, params.digests, order, j);
    assert order[j] in params.digests;
  }

  /** With a positive TTL only the first existing digest file in iteration
      order is consulted: when it has expired it is deleted and the lookup
      misses, even though a later digest file is present and fresh. */
  lemma ExpiredFirstDigestShadows(dir: Path, cache: CacheDir, params: StreamParams, order: seq<string>,
                                  ttl: int, now: int, i: nat)
    requires IsKeyOrder(order, params.digests)
    requires 0 < i < |order|
    requires OrderedDigestFile(dir, params.digests, order, 0) in cache
    requires Expired(cache[OrderedDigestFile(dir, params.digests, order, 0)], ttl, now)
    requires OrderedDigestFile(dir, params.digests, order, i) in cache
    requires !Expired(cache[OrderedDigestFile(dir, params.digests, order, i)], ttl, now)
    ensures var r := GetCachedFile(dir, cache, params, order, ttl, now);
      && r.hit.None?
      && r.cache == cache - {OrderedDigestFile(dir, params.digests, order, 0)}
  {
    assert forall j :: 0 <= j < |order| ==> order[j] in params.digests;
    assert FirstDigestHit(dir, cache, params.digests, order) == Some(OrderedDigestFile(dir, params.digests, order, 0));
  }

  /** Without any digest file the only possible hit is the identity file,
      and only when it postdates the modified date. */
  lemma IdentityOnlyWithoutDigestHit(dir: Path, cache: CacheDir, params: StreamParams, order: seq<string>,
                                     ttl: int, now: int)
    requires IsKeyOrder(order, params.digests)
    requires forall k :: k in params.digests ==> DigestCacheFile(dir, k, params.digests[k]) !in cache
    ensures var r := GetCachedFile(dir, cache, params, order, ttl, now);
      r.hit.Some? <==>
        var f := IdentityCacheFile(dir, params);
        && f in cache && params.modified.Some? && params.modified.value < cache[f].lastModified
        && !Expired(cache[f], ttl, now)
  {
    assert forall i :: 0 <= i < |order| ==> order[i] in params.digests;
  }

  // ---------------------------------------------------------------------
  // Filling the cache

  /** The connector's content download: a status code with the number of
      bytes written, or an exception before or after the cache file was
      chosen. */
  datatype Fetch = Fetched(code: int, size: nat) | ConnectorFailure | TransferFailure

  datatype CacheOutcome = CacheOutcome(file: Option<Path>, redirect: Option<int>, cache: CacheDir)

  /** The file cacheFile writes: the identity file when there are no
      digests, else the file of the first digest in iteration order. */
  function CacheFileName(dir: Path, params: StreamParams, order: seq<string>): (f: Path)
    requires IsKeyOrder(order, params.digests)
    ensures params.digests == map[] ==> f == IdentityCacheFile(dir, params)
    ensures params.digests != map[] ==>
      exists k :: k in params.digests && f == DigestCacheFile(dir, k, params.digests[k])
  {
    if params.digests == map[] then IdentityCacheFile(dir, params)
    else
      assert exists k :: k in params.digests;
      assert |order| > 0;
      DigestCacheFile(dir, order[0], params.digests[order[0]])
  }

  /** cacheFile: downloads into the chosen file; a non-200 reply deletes it
      and redirects with that code; an exception deletes it (when already
      chosen), drops the result and redirects with 500. */
  function CacheFile(dir: Path, cache: CacheDir, params: StreamParams, order: seq<string>, fetch: Fetch, now: int)
    : (r: CacheOutcome)
    requires IsKeyOrder(order, params.digests)
    ensures var f := CacheFileName(dir, params, order);
      && (r.redirect.None? <==> fetch.Fetched? && fetch.code == StatusOk)
      && (r.redirect.None? ==> r.file == Some(f) && r.cache == cache[f := CachedFile(fetch.size, now)])
      && (fetch.Fetched? && fetch.code != StatusOk ==>
            r.file == Some(f) && r.redirect == Some(fetch.code) && r.cache == cache - {f})
      && (fetch.TransferFailure? ==>
            r.file.None? && r.redirect == Some(StatusInternalError) && r.cache == cache - {f})
      && (fetch.ConnectorFailure? ==>
            r.file.None? && r.redirect == Some(StatusInternalError) && r.cache == cache)
    ensures r.redirect.None? ==> r.file.Some? && r.file.value in r.cache
  {
    var f := CacheFileName(dir, params, order);
    match fetch
    case ConnectorFailure => CacheOutcome(None, Some(StatusInternalError), cache)
    case TransferFailure => CacheOutcome(None, Some(StatusInternalError), cache - {f})
    case Fetched(code, size) =>
      if code != StatusOk then CacheOutcome(Some(f), Some(code), cache - {f})
      else CacheOutcome(Some(f), None, cache[f := CachedFile(size, now)])
  }

  // ---------------------------------------------------------------------
  // If-Modified-Since

  /** The If-Modified-Since header: parsed to epoch milliseconds, or not
      parseable (which the script reads as 0). */
  datatype HeaderDate = Parsed(millis: int) | Unparseable

  function SinceMillis(h: HeaderDate): int
  {
    if h.Parsed? then h.millis else 0
  }

  /** Java's long division, which truncates toward zero. */
  function JavaDiv(a: int, b: int): (q: int)
    requires b > 0
    ensures a >= 0 ==> q == a / b
    ensures a < 0 ==> q == -((-a) / b)
  {
    if a >= 0 then a / b else -((-a) / b)
  }

  /** The modified time with its milliseconds dropped, as (t / 1000) * 1000. */
  function WholeSeconds(millis: int): int
  {
    JavaDiv(millis, 1000) * 1000
  }

  /** The 304 decision: the header and the modified date are present, the
      header time is positive, and the modified time in whole seconds is
      not after it. */
  predicate NotModifiedSince(header: Option<HeaderDate>, modified: Option<int>)
  {
    && header.Some? && modified.Some?
    && SinceMillis(header.value) > 0
    && WholeSeconds(modified.value) <= SinceMillis(header.value)
  }

  /** Dropping milliseconds moves a time toward zero by less than a second
      and lands on a whole second. */
  lemma WholeSecondsBounds(millis: int)
    ensures WholeSeconds(millis) % 1000 == 0
    ensures millis >= 0 ==> 0 <= WholeSeconds(millis) <= millis < WholeSeconds(millis) + 1000
    ensures millis < 0 ==> WholeSeconds(millis) - 1000 < millis <= WholeSeconds(millis) <= 0
  {
    if millis < 0 {
      var q := (-millis) / 1000;
      assert q * 1000 <= -millis < q * 1000 + 1000;
    }
  }

  /** For a non-negative modified time, 304 means: the header parses to a
      positive time in the same or a later second. */
  lemma NotModifiedSameOrLaterSecond(since: int, modified: int)
    requires modified >= 0
    ensures NotModifiedSince(Some(Parsed(since)), Some(modified)) <==> since > 0 && modified / 1000 <= since / 1000
  {
    WholeSecondsBounds(modified);
    if since > 0 {
      var m := modified / 1000;
      var s := since / 1000;
      assert s * 1000 <= since < s * 1000 + 1000;
      if m <= s {
        assert m * 1000 <= s * 1000;
      } else {
        assert m >= s + 1;
        assert m * 1000 >= s * 1000 + 1000;
      }
    }
  }

  /** An unparseable or absent header, or an unknown modified date, never
      yields 304. */
  lemma NoNotModifiedWithoutDates(header: Option<HeaderDate>, modified: Option<int>)
    requires header.None? || header == Some(Unparseable) || modified.None?
    ensures !NotModifiedSince(header, modified)
  {
  }

  // ---------------------------------------------------------------------
  // Response headers

  /** The Content-Range value for a whole file of `size` bytes. */
  function ContentRange(size: int): (r: string)
    ensures "bytes 0-" <= r
  {
    "bytes 0-" + LongToString(size - 1) + "/" + LongToString(size)
  }

  /** The Content-Length value. */
  function ContentLength(size: int): (r: string)
    ensures ParseLong(r) == Some(size)
  {
    ParseLongToString(size);
    LongToString(size)
  }

  lemma NoSlashInLong(n: int)
    ensures '/' !in LongToString(n)
  {
    var s := LongToString(n);
    if n < 0 {
      assert s == "-" + NatToString(-n);
      forall i | 0 <= i < |s| ensures s[i] != '/' {
        if i > 0 { assert s[i] == NatToString(-n)[i - 1]; }
      }
    }
  }

  /** The Content-Range value names the last byte `size - 1` and the total
      `size`, which is also the Content-Length. */
  lemma ContentRangeParses(size: int)
    ensures var parts := SplitAll(ContentRange(size)[8..], '/');
      && |parts| == 2
      && ParseLong(parts[0]) == Some(size - 1)
      && ParseLong(parts[1]) == Some(size)
      && parts[1] == ContentLength(size)
  {
    var first := LongToString(size - 1);
    var total := LongToString(size);
    NoSlashInLong(size - 1);
    NoSlashInLong(size);
    assert ContentRange(size)[8..] == first + ['/'] + total;
    SplitAllAfterPart(first, '/', total);
    SplitAllNoSeparator(total, '/');
    ParseLongToString(size - 1);
    ParseLongToString(size);
  }

  /** An empty file gets the range "bytes 0--1/0". */
  lemma EmptyFileRange()
    ensures ContentRange(0) == "bytes 0--1/0"
  {
    assert LongToString(-1) == "-1";
    assert LongToString(0) == "0";
  }

  const DispositionName: string := "attachment; filename*=UTF-8''"

  /** The file name offered for download: the fileName template variable,
      else the extension path. */
  function AttachmentName(params: StreamParams): Option<string>
  {
    if params.fileName.Some? then params.fileName else params.extensionPath
  }

  /** Content-Disposition: set only for attachments; carries the file name,
      URL-encoded and quoted, only when the name is non-empty. `encode` is
      URLEncoder.encode. */
  function ContentDisposition(params: StreamParams, encode: string -> string): (r: Option<string>)
    ensures r.Some? <==> params.attachment
    ensures r.Some? ==> "attachment" <= r.value
    ensures r.Some? ==> (r.value == "attachment" <==> !Mandatory(AttachmentName(params)))
    ensures r.Some? && Mandatory(AttachmentName(params)) ==>
      var name := AttachmentName(params).value;
      && DispositionName <= r.value
      && EndsWith(r.value, "; filename=\"" + name + "\"")
      && |r.value| == |DispositionName| + |encode(name)| + |"; filename=\"" + name + "\""|
      && r.value[|DispositionName|..|DispositionName| + |encode(name)|] == encode(name)
  {
    if !params.attachment then None
    else
      var name := AttachmentName(params);
      if Mandatory(name) then
        var value := DispositionName + encode(name.value) + "; filename=\"" + name.value + "\"";
        assert value == (DispositionName + encode(name.value)) + ("; filename=\"" + name.value + "\"");
        Some(value)
      else Some("attachment")
  }

  datatype StreamHeaders = StreamHeaders(
    disposition: Option<string>, contentType: Option<string>, contentEncoding: Option<string>,
    contentRange: string, contentLength: string)

  /** The headers streamCachedFileImpl sets for a cached file of `size` bytes. */
  function Headers(params: StreamParams, size: nat, encode: string -> string): (h: StreamHeaders)
    ensures h.disposition == ContentDisposition(params, encode)
    ensures h.contentType == params.mimetype && h.contentEncoding == params.encoding
    ensures ParseLong(h.contentLength) == Some(size)
    ensures h.contentRange == ContentRange(size)
  {
    StreamHeaders(ContentDisposition(params, encode), params.mimetype, params.encoding,
                  ContentRange(size), ContentLength(size))
  }

  // ---------------------------------------------------------------------
  // Thumbnail call-through

  /** The query string callThroughThumbnail appends, built as the script
      does with a flag for the first parameter. */
  function ThumbnailQuery(c: Option<string>, ph: Option<string>, encode: string -> string): (q: string)
    ensures q == "" <==> c.None? && ph.None?
    ensures q != "" ==> q[0] == '?'
  {
    if c.None? && ph.None? then ""
    else
      var initial := true;
      var withC := if c.Some? then (if !initial then "&" else "") + "c=" + encode(c.value) else "";
      var initial := initial && c.None?;
      var withPh := if ph.Some? then (if !initial then "&" else "") + "ph=" + encode(ph.value) else "";
      "?" + withC + withPh
  }

  /** The present parameters in order: `c` before `ph`. */
  function QueryParams(c: Option<string>, ph: Option<string>, encode: string -> string): seq<string>
  {
    (if c.Some? then ["c=" + encode(c.value)] else []) + (if ph.Some? then ["ph=" + encode(ph.value)] else [])
  }

  /** The query is "?" and the present parameters joined by '&', or nothing
      when neither is present. */
  lemma ThumbnailQueryJoinsParams(c: Option<string>, ph: Option<string>, encode: string -> string)
    ensures var ps := QueryParams(c, ph, encode);
      ThumbnailQuery(c, ph, encode) == if |ps| == 0 then "" else "?" + Join(ps, '&')
  {
    var ps := QueryParams(c, ph, encode);
    if c.Some? && ph.Some? {
      assert ps[1..] == ["ph=" + encode(ph.value)];
      assert Join(ps, '&') == ps[0] + "&" + ps[1];
    }
  }

  /** callThroughThumbnail's URI: the node's thumbnail, the URL-encoded
      file name when there is one, then the query. */
  function ThumbnailUri(params: StreamParams, c: Option<string>, ph: Option<string>, encode: string -> string)
    : (uri: string)
    requires params.thumbnailName.Some?
    ensures var base := "/api/node/" + params.storeType + "/" + params.storeId + "/" + params.id
                        + "/content/thumbnails/" + params.thumbnailName.value;
            var query := ThumbnailQuery(c, ph, encode);
      && base <= uri
      && EndsWith(uri, query)
      && (params.fileName.None? ==> uri == base + query)
      && (params.fileName.Some? ==>
            var named := "/" + encode(params.fileName.value);
            && |uri| == |base| + |named| + |query|
            && uri[|base|..|base| + |named|] == named)
  {
    var base := "/api/node/" + params.storeType + "/" + params.storeId + "/" + params.id
                + "/content/thumbnails/" + params.thumbnailName.value;
    var named := if params.fileName.Some? then "/" + encode(params.fileName.value) else "";
    var query := ThumbnailQuery(c, ph, encode);
    assert base + named + query == base + (named + query);
    base + named + query
  }

  // ---------------------------------------------------------------------
  // execute

  /** The script's fixed environment: cache directory, TTL, the clock and
      URLEncoder.encode. */
  datatype Env = Env(dir: Path, ttl: int, now: int, encode: string -> string)

  /** The parts of the request the script reads after its parameters. */
  datatype Request = Request(ifModifiedSince: Option<HeaderDate>, c: Option<string>, ph: Option<string>)

  datatype Reply =
    | CallThrough(uri: string)
    | SendStatus(code: int)
    | NotModified
    | Stream(file: Path, headers: StreamHeaders)

  datatype Served = Served(reply: Reply, cache: CacheDir)

  /** execute: check the repository, answer 304 when possible, then serve
      the cached file or cache it first. `order` is the iteration order of
      the digests the check collected. */
  function Execute(env: Env, params: StreamParams, req: Request, repo: RepoReply, order: seq<string>,
                   fetch: Fetch, cache: CacheDir): (r: Served)
    requires IsKeyOrder(order, CheckRepository(params, repo).params.digests)
    ensures var checked := CheckRepository(params, repo);
      && (checked.redirect.Some? ==>
            r.cache == cache
            && (if checked.redirect.value == StatusNotFound && params.thumbnailName.Some?
                then r.reply == CallThrough(ThumbnailUri(checked.params, req.c, req.ph, env.encode))
                else r.reply == SendStatus(checked.redirect.value)))
      && (checked.redirect.None? && NotModifiedSince(req.ifModifiedSince, checked.params.modified) ==>
            r == Served(NotModified, cache))
    ensures r.reply.Stream? ==> r.reply.file in r.cache
                                && r.reply.headers == Headers(CheckRepository(params, repo).params,
                                                              r.cache[r.reply.file].size, env.encode)
    ensures var checked := CheckRepository(params, repo);
            var lookup := GetCachedFile(env.dir, cache, checked.params, order, env.ttl, env.now);
      checked.redirect.None? && !NotModifiedSince(req.ifModifiedSince, checked.params.modified) ==>
        && (lookup.hit.Some? ==> r.reply.Stream? && r.reply.file == lookup.hit.value && r.cache == lookup.cache)
        && (lookup.hit.None? ==>
              var f := CacheFileName(env.dir, checked.params, order);
              && (fetch.Fetched? && fetch.code == StatusOk ==>
                    r.reply.Stream? && r.reply.file == f && r.cache == lookup.cache[f := CachedFile(fetch.size, env.now)])
              && (fetch.Fetched? && fetch.code != StatusOk ==>
                    r.reply == SendStatus(fetch.code) && r.cache == lookup.cache - {f})
              && (fetch.TransferFailure? ==>
                    r.reply == SendStatus(StatusInternalError) && r.cache == lookup.cache - {f})
              && (fetch.ConnectorFailure? ==>
                    r.reply == SendStatus(StatusInternalError) && r.cache == lookup.cache))
  {
    var checked := CheckRepository(params, repo);
    var p := checked.params;
    if checked.redirect.Some? then
      if checked.redirect.value == StatusNotFound && p.thumbnailName.Some? then
        Served(CallThrough(ThumbnailUri(p, req.c, req.ph, env.encode)), cache)
      else Served(SendStatus(checked.redirect.value), cache)
    else if NotModifiedSince(req.ifModifiedSince, p.modified) then Served(NotModified, cache)
    else
      var lookup := GetCachedFile(env.dir, cache, p, order, env.ttl, env.now);
      if lookup.hit.Some? then
        var f := lookup.hit.value;
        Served(Stream(f, Headers(p, lookup.cache[f].size, env.encode)), lookup.cache)
      else
        var outcome := CacheFile(env.dir, lookup.cache, p, order, fetch, env.now);
        if outcome.redirect.Some? then Served(SendStatus(outcome.redirect.value), outcome.cache)
        else
          var f := outcome.file.value;
          Served(Stream(f, Headers(p, outcome.cache[f].size, env.encode)), outcome.cache)
  }

  /** A cache hit is served without consulting the download. */
  lemma CacheHitSkipsFetch(env: Env, params: StreamParams, req: Request, repo: RepoReply, order: seq<string>,
                           fetch1: Fetch, fetch2: Fetch, cache: CacheDir)
    requires IsKeyOrder(order, CheckRepository(params, repo).params.digests)
    requires GetCachedFile(env.dir, cache, CheckRepository(params, repo).params, order, env.ttl, env.now).hit.Some?
    ensures Execute(env, params, req, repo, order, fetch1, cache) == Execute(env, params, req, repo, order, fetch2, cache)
  {
  }

  /** A file just stored under the name cacheFile chooses is what a later
      lookup within the TTL finds: under the first listed digest, or as the
      identity file when no digest is known and the file postdates the
      modified date. */
  lemma StoredFileFound(dir: Path, cache: CacheDir, p: StreamParams, order: seq<string>, ttl: int,
                        now: int, later: int, size: nat)
    requires IsKeyOrder(order, p.digests)
    requires ttl <= 0 || later - now <= ttl
    requires p.digests == map[] ==> p.modified.Some? && p.modified.value < now
    ensures var f := CacheFileName(dir, p, order);
      GetCachedFile(dir, cache[f := CachedFile(size, now)], p, order, ttl, later).hit == Some(f)
  {
    var f := CacheFileName(dir, p, order);
    var stored := cache[f := CachedFile(size, now)];
    assert forall i :: 0 <= i < |order| ==> order[i] in p.digests;
    if p.digests == map[] {
      assert FirstDigestHit(dir, stored, p.digests, order).None?;
      assert IdentityHit(dir, stored, p) == Some(f);
    } else {
      assert OrderedDigestFile(dir, p.digests, order, 0) == f;
      assert FirstDigestHit(dir, stored, p.digests, order) == Some(f);
    }
  }

  /** Content downloaded for a request (one that passes the repository
      check, is not answered 304 and misses the cache) is served from the
      cache to the same request made again within the TTL (for an identity-keyed file, once
      the download postdates the modified date), with the downloaded
      length. */
  lemma DownloadedContentServedAgain(env: Env, later: int, params: StreamParams, req: Request, repo: RepoReply,
                                     order: seq<string>, size: nat, next: Fetch, cache: CacheDir)
    requires IsKeyOrder(order, CheckRepository(params, repo).params.digests)
    requires CheckRepository(params, repo).redirect.None?
    requires !NotModifiedSince(req.ifModifiedSince, CheckRepository(params, repo).params.modified)
    requires GetCachedFile(env.dir, cache, CheckRepository(params, repo).params, order, env.ttl, env.now).hit.None?
    requires env.ttl <= 0 || later - env.now <= env.ttl
    requires var p := CheckRepository(params, repo).params;
      p.digests == map[] ==> p.modified.Some? && p.modified.value < env.now
    ensures var first := Execute(env, params, req, repo, order, Fetched(StatusOk, size), cache);
            var again := Execute(env.(now := later), params, req, repo, order, next, first.cache);
      && again.reply.Stream?
      && again.cache == first.cache
      && again.reply.headers.contentLength == ContentLength(size)
  {
    var checked := CheckRepository(params, repo);
    var p := checked.params;
    var first := Execute(env, params, req, repo, order, Fetched(StatusOk, size), cache);
    var lookup := GetCachedFile(env.dir, cache, p, order, env.ttl, env.now);
    var outcome := CacheFile(env.dir, lookup.cache, p, order, Fetched(StatusOk, size), env.now);
    var f := CacheFileName(env.dir, p, order);
    assert first.cache == lookup.cache[f := CachedFile(size, env.now)];
    StoredFileFound(env.dir, lookup.cache, p, order, env.ttl, env.now, later, size);
  }
}

=== FILE: filesystem.dfy ===
/** An abstract filesystem: a map from path to file contents. Directories
    are implicit in the paths; temporary files and content-store blobs
    share the one map. */
module FileSystem {

  newtype byte = x: int | 0 <= x < 256

  type Bytes = seq<byte>

  type Path = string

  type Fs = map<Path, Bytes>

  /** new File(dir, name), joined as text: java.io.File would also collapse
      repeated '/', drop a trailing '/' and give `dir` itself for an empty
      name; none of that is modelled. */
  function Child(dir: Path, name: string): Path
  {
    dir + "/" + name
  }

  /** `p` names something strictly below the directory `dir`. */
  predicate Below(dir: Path, p: Path)
  {
    |dir| + 1 <= |p| && p[..|dir| + 1] == dir + "/"
  }

  lemma ChildIsBelow(dir: Path, name: string)
    ensures Below(dir, Child(dir, name))
  {
    assert Child(dir, name) == (dir + "/") + name;
  }

  /** File.length(): the byte count, or 0 when the file does not exist. */
  function Length(fs: Fs, p: Path): nat
  {
    if p in fs then |fs[p]| else 0
  }
}

=== FILE: finalize.dfy ===
/** HashBasedWriterStreamListener.contentStreamClosed, in both of its
    versions: the one-way step that turns a finished temporary file into a
    content-addressed blob, deduplicating against an existing one. */
module Finalization {
  import opened Wrappers
  import opened FileSystem
  import opened ContentStore
  import opened ContentWriter

  /** A message digest rendered as hex: Hex.encodeHex(digest.digest()) for
      an algorithm and the bytes fed to it. Left uninterpreted. */
  type Hash = (string, Bytes) -> string

  /** Collision resistance, stated where a proof needs it: under one
      algorithm, equal digests mean equal bytes. */
  ghost predicate Injective(hash: Hash, algorithm: string)
  {
    forall b1, b2 :: hash(algorithm, b1) == hash(algorithm, b2) ==> b1 == b2
  }

  /** Every blob file of the store holds the bytes whose digest names it. */
  ghost predicate ContentAddressed(cfg: Config, fs: Fs, hash: Hash, algorithm: string)
  {
    forall b :: BlobFile(cfg, hash(algorithm, b)) in fs ==> fs[BlobFile(cfg, hash(algorithm, b))] == b
  }

  /** Deleting any URL keeps the store content-addressed: delete removes at
      most the one file and changes no other file's bytes. */
  lemma DeletePreservesContentAddressing(cfg: Config, fs: Fs, hash: Hash, algorithm: string, url: string,
                                         removeSucceeds: bool)
    requires ContentAddressed(cfg, fs, hash, algorithm)
    requires Delete(cfg, fs, url, removeSucceeds).Success?
    ensures ContentAddressed(cfg, Delete(cfg, fs, url, removeSucceeds).value.fs, hash, algorithm)
  {
  }

  /** The exception contentStreamClosed can raise: both versions call
      digest() on the writer's message digest before they look at the
      temporary file, so a writer without a digest fails there. */
  datatype CloseError = NullDigest

  /** The writer, the filesystem and the transaction's post-rollback
      deletion set after the listener ran. */
  datatype Closed = Closed(w: Writer, fs: Fs, rollback: Option<set<string>>)

  /** Set.remove on the deletion set; removing null changes nothing. */
  function Unregister(s: set<string>, url: Option<string>): set<string>
  {
    if url.Some? then s - {url.value} else s
  }

  /** The repository listener's deletion-set bookkeeping: the writer's
      previous URL (its placeholder, for the newer writer) is dropped, and
      the new URL is added when its blob does not exist yet. */
  function Pending(s: set<string>, previous: Option<string>, url: string, absent: bool): (s': set<string>)
    ensures url in s' <==> absent || (url in s && Some(url) != previous)
    ensures forall u :: u != url ==> (u in s' <==> u in s && Some(u) != previous)
  {
    var dropped := Unregister(s, previous);
    if absent then dropped + {url} else dropped
  }

  /** The copy into the blob file, attempted only when the blob is absent;
      afterwards the temporary file is removed either way. */
  function CopyAndRemove(fs: Fs, tmp: Path, target: Path, copyFails: bool): (fs': Fs)
    ensures tmp !in fs'
    ensures target in fs && target != tmp ==> target in fs' && fs'[target] == fs[target]
    ensures target !in fs && !copyFails && tmp in fs ==> target in fs' && fs'[target] == fs[tmp]
    ensures target !in fs && (copyFails || tmp !in fs) ==> target !in fs'
    ensures forall p :: p != target && p != tmp ==> (p in fs' <==> p in fs)
    ensures forall p :: p in fs' && p != target ==> fs'[p] == fs[p]
  {
    var copied := target !in fs && !copyFails && tmp in fs;
    var fs1 := if copied then fs[target := fs[tmp]] else fs;
    fs1 - {tmp}
  }

  /** contentStreamClosed. `rollback` is None for the listener without
      rollback bookkeeping and Some(set) for the one that keeps the
      transaction's post-rollback deletion URLs. `copyFails` is an
      IOException from the copy, which is logged and swallowed. */
  function ContentStreamClosed(cfg: Config, w: Writer, fs: Fs, rollback: Option<set<string>>,
                               hash: Hash, copyFails: bool): (r: Result<Closed, CloseError>)
    ensures r.Failure? <==> w.digest.None?
    ensures r.Success? ==> (r.value.rollback.Some? <==> rollback.Some?)
    ensures r.Success? ==> r.value.w.kind == w.kind && r.value.w.listeners == w.listeners
    ensures r.Success? && w.temp.None? ==>
      && r.value.fs == fs && r.value.rollback == rollback
      && r.value.w.url == w.url && r.value.w.size == w.size
    ensures r.Success? && w.temp.Some? ==>
      var hex := hash(w.digest.value.algorithm, w.digest.value.fed);
      var target := BlobFile(cfg, hex);
      var tmp := w.temp.value;
      && ContentUrl(r.value.w) == Some(CreateContentUrl(hex))
      && r.value.w.size == Length(fs, tmp)
      && tmp !in r.value.fs
      && (target in fs && target != tmp ==> target in r.value.fs && r.value.fs[target] == fs[target])
      && (target !in fs && !copyFails && tmp in fs ==> target in r.value.fs && r.value.fs[target] == fs[tmp])
      && (target !in fs && (copyFails || tmp !in fs) ==> target !in r.value.fs)
      && (forall p :: p != target && p != tmp ==> (p in r.value.fs <==> p in fs))
      && (forall p :: p in r.value.fs && p != target ==> r.value.fs[p] == fs[p])
    ensures r.Success? && w.temp.Some? && rollback.Some? ==>
      var url := CreateContentUrl(hash(w.digest.value.algorithm, w.digest.value.fed));
      var target := BlobFile(cfg, hash(w.digest.value.algorithm, w.digest.value.fed));
      var s := rollback.value;
      var s' := r.value.rollback.value;
      && (url in s' <==> target !in fs || (url in s && Some(url) != ContentUrl(w)))
      && (forall u :: u != url ==> (u in s' <==> u in s && Some(u) != ContentUrl(w)))
  {
    if w.digest.None? then Failure(NullDigest)
    else
      var d := w.digest.value;
      var hex := hash(d.algorithm, d.fed);
      // digest() also resets the message digest
      var w0 := w.(digest := Some(Digest(d.algorithm, [])));
      if w.temp.None? then Success(Closed(w0, fs, rollback))
      else
        var tmp := w.temp.value;
        var url := CreateContentUrl(hex);
        CreatedUrlResolves(cfg, hex);
        var target := MakeFile(cfg, url).value;
        var absent := target !in fs;
        // the new URL is registered before the copy is attempted
        var pending := if rollback.Some? then Some(Pending(rollback.value, ContentUrl(w), url, absent)) else None;
        var w1 := SetSize(SetContentUrl(w0, url), Length(fs, tmp));
        Success(Closed(w1, CopyAndRemove(fs, tmp, target, copyFails), pending))
  }

  /** The two listeners leave the writer and the filesystem in the same
      state; they differ only in the deletion set, which the older one
      does not keep. */
  lemma ListenersAgree(cfg: Config, w: Writer, fs: Fs, s: set<string>, hash: Hash, copyFails: bool)
    ensures var without := ContentStreamClosed(cfg, w, fs, None, hash, copyFails);
            var with := ContentStreamClosed(cfg, w, fs, Some(s), hash, copyFails);
      && (without.Success? <==> with.Success?)
      && (without.Success? ==> without.value.w == with.value.w && without.value.fs == with.value.fs)
      && (without.Success? ==> without.value.rollback.None?)
  {
  }

  /** Two finalized writers publish the same URL exactly when their digests
      agree. */
  lemma EqualDigestsEqualUrls(cfg: Config, w1: Writer, fs1: Fs, rb1: Option<set<string>>, c1: bool,
                              w2: Writer, fs2: Fs, rb2: Option<set<string>>, c2: bool, hash: Hash)
    requires w1.digest.Some? && w1.temp.Some? && w2.digest.Some? && w2.temp.Some?
    ensures var r1 := ContentStreamClosed(cfg, w1, fs1, rb1, hash, c1);
            var r2 := ContentStreamClosed(cfg, w2, fs2, rb2, hash, c2);
      ContentUrl(r1.value.w) == ContentUrl(r2.value.w)
      <==> hash(w1.digest.value.algorithm, w1.digest.value.fed) == hash(w2.digest.value.algorithm, w2.digest.value.fed)
  {
    var h1 := hash(w1.digest.value.algorithm, w1.digest.value.fed);
    var h2 := hash(w2.digest.value.algorithm, w2.digest.value.fed);
    if CreateContentUrl(h1) == CreateContentUrl(h2) {
      CreateContentUrlInjective(h1, h2);
    }
  }

  /** Finalizing keeps the store content-addressed: a new blob holds the
      bytes its digest names, and deleting the temporary file, which lies
      outside the store root, removes no blob. */
  lemma ClosePreservesContentAddressing(cfg: Config, w: Writer, fs: Fs, rollback: Option<set<string>>,
                                        hash: Hash, copyFails: bool)
    requires InSync(w, fs) && !Below(cfg.root, w.temp.value)
    requires Injective(hash, w.digest.value.algorithm)
    requires ContentAddressed(cfg, fs, hash, w.digest.value.algorithm)
    ensures ContentAddressed(cfg, ContentStreamClosed(cfg, w, fs, rollback, hash, copyFails).value.fs,
                             hash, w.digest.value.algorithm)
  {
    var alg := w.digest.value.algorithm;
    var fed := w.digest.value.fed;
    var hex := hash(alg, fed);
    var target := BlobFile(cfg, hex);
    var fs' := ContentStreamClosed(cfg, w, fs, rollback, hash, copyFails).value.fs;
    CreatedUrlResolves(cfg, hex);
    forall b | BlobFile(cfg, hash(alg, b)) in fs'
      ensures fs'[BlobFile(cfg, hash(alg, b))] == b
    {
      var f := BlobFile(cfg, hash(alg, b));
      CreatedUrlResolves(cfg, hash(alg, b));
      if f == target {
        BlobFileInjective(cfg, hash(alg, b), hex);
        assert b == fed;
      } else {
        assert f != w.temp.value;
        assert f in fs;
      }
    }
  }

  /** Round trip: after finalizing with a successful copy, reading the
      published URL yields exactly the bytes that were written, whether the
      blob was new or already present. */
  lemma ClosedContentReadsBack(cfg: Config, w: Writer, fs: Fs, rollback: Option<set<string>>, hash: Hash)
    requires InSync(w, fs) && !Below(cfg.root, w.temp.value)
    requires ContentAddressed(cfg, fs, hash, w.digest.value.algorithm)
    ensures var r := ContentStreamClosed(cfg, w, fs, rollback, hash, false).value;
      var reader := GetReader(cfg, r.fs, ContentUrl(r.w), false);
      && reader.Success? && reader.value.FileReader?
      && ReadAll(r.fs, reader.value) == fs[w.temp.value]
  {
    var alg := w.digest.value.algorithm;
    var fed := w.digest.value.fed;
    var hex := hash(alg, fed);
    CreatedUrlResolves(cfg, hex);
    var target := BlobFile(cfg, hex);
    assert target != w.temp.value;
    if target in fs {
      assert fs[BlobFile(cfg, hash(alg, fed))] == fed;
    }
  }

  /** Writing the same bytes a second time publishes the same URL and
      creates no file: the second finalize only removes its own temporary
      file, and never registers the existing blob for rollback deletion. */
  lemma SecondWriteDeduplicates(cfg: Config, w1: Writer, fs: Fs, rb1: Option<set<string>>, hash: Hash,
                                w2: Writer, rb2: set<string>, copyFails2: bool)
    requires InSync(w1, fs) && !Below(cfg.root, w1.temp.value)
    requires var first := ContentStreamClosed(cfg, w1, fs, rb1, hash, false).value;
      && InSync(w2, first.fs) && !Below(cfg.root, w2.temp.value)
      && w2.digest.value == w1.digest.value
    ensures var first := ContentStreamClosed(cfg, w1, fs, rb1, hash, false).value;
            var second := ContentStreamClosed(cfg, w2, first.fs, Some(rb2), hash, copyFails2).value;
      var url := ContentUrl(first.w).value;
      && ContentUrl(second.w) == ContentUrl(first.w)
      && second.fs.Keys == first.fs.Keys - {w2.temp.value}
      && (forall p :: p in second.fs ==> second.fs[p] == first.fs[p])
      && (url in second.rollback.value ==> url in rb2)
  {
    var hex := hash(w1.digest.value.algorithm, w1.digest.value.fed);
    CreatedUrlResolves(cfg, hex);
    var target := BlobFile(cfg, hex);
    var first := ContentStreamClosed(cfg, w1, fs, rb1, hash, false).value;
    assert target in first.fs;
    assert target != w2.temp.value;
  }

  /** Two copies of equal bytes to one blob file, each followed by removing
      its own temporary file, commute. */
  lemma CopiesCommute(fs: Fs, t1: Path, t2: Path, target: Path)
    requires t1 in fs && t2 in fs && fs[t1] == fs[t2]
    requires t1 != t2 && target != t1 && target != t2
    ensures CopyAndRemove(CopyAndRemove(fs, t1, target, false), t2, target, false)
         == CopyAndRemove(CopyAndRemove(fs, t2, target, false), t1, target, false)
  {
    var ab := CopyAndRemove(CopyAndRemove(fs, t1, target, false), t2, target, false);
    var ba := CopyAndRemove(CopyAndRemove(fs, t2, target, false), t1, target, false);
    assert ab.Keys == ba.Keys;
  }

  /** Two sessions finalizing identical bytes, in either order, leave the
      same filesystem: the copies are idempotent and commute. */
  lemma ClosingCommutes(cfg: Config, w1: Writer, w2: Writer, fs: Fs, hash: Hash)
    requires InSync(w1, fs) && InSync(w2, fs) && w1.temp != w2.temp
    requires !Below(cfg.root, w1.temp.value) && !Below(cfg.root, w2.temp.value)
    requires w1.digest.value == w2.digest.value
    ensures var a := ContentStreamClosed(cfg, w1, fs, None, hash, false).value;
            var b := ContentStreamClosed(cfg, w2, fs, None, hash, false).value;
      && InSync(w2, a.fs) && InSync(w1, b.fs)
      && ContentStreamClosed(cfg, w2, a.fs, None, hash, false).value.fs
         == ContentStreamClosed(cfg, w1, b.fs, None, hash, false).value.fs
  {
    var hex := hash(w1.digest.value.algorithm, w1.digest.value.fed);
    CreatedUrlResolves(cfg, hex);
    var target := BlobFile(cfg, hex);
    var t1 := w1.temp.value;
    var t2 := w2.temp.value;
    assert target != t1 && target != t2;
    var a := ContentStreamClosed(cfg, w1, fs, None, hash, false).value;
    var b := ContentStreamClosed(cfg, w2, fs, None, hash, false).value;
    assert a.fs == CopyAndRemove(fs, t1, target, false);
    assert b.fs == CopyAndRemove(fs, t2, target, false);
    assert ContentStreamClosed(cfg, w2, a.fs, None, hash, false).value.fs == CopyAndRemove(a.fs, t2, target, false);
    assert ContentStreamClosed(cfg, w1, b.fs, None, hash, false).value.fs == CopyAndRemove(b.fs, t1, target, false);
    CopiesCommute(fs, t1, t2, target);
  }
}

=== FILE: fingerprint.dfy ===
/** ContentFingerprint: the (property, digest type, digest value) record
    and its string conversions. The property QName is kept as an opaque
    string. */
module Fingerprints {
  import opened Wrappers
  import opened Text

  /** The field separator of the string form. */
  const Separator: char := '|'

  /** new ContentFingerprint(contentProperty, messageDigestType,
      digestValue); the getters are the field names. */
  datatype ContentFingerprint = ContentFingerprint(property: string, digestType: string, digestValue: string)

  /** TypeConversionException from the String-to-fingerprint converter. */
  datatype ConversionError = ParseFailure(source: string)

  /** The String-to-ContentFingerprint converter: split on '|' with Java's
      split, which drops trailing empty fields, and require exactly three. */
  function Decode(source: string): (r: Result<ContentFingerprint, ConversionError>)
    ensures r.Failure? ==> r.error == ParseFailure(source)
  {
    var fragments := JavaSplit(source, Separator);
    if |fragments| == 3 then Success(ContentFingerprint(fragments[0], fragments[1], fragments[2]))
    else Failure(ParseFailure(source))
  }

  /** The ContentFingerprint-to-String converter as written: it formats a
      value, discards it and returns null, for every record. */
  function EncodeAsWritten(fp: ContentFingerprint): Option<string>
  {
    None
  }

  /** The value the converter computes and discards. MessageFormat takes
      {0}-style arguments, so the "%s" pattern is returned as it stands and
      the record's fields never reach it. */
  function DiscardedFormat(fp: ContentFingerprint): string
  {
    "%s|%s|%s"
  }

  /** Neither the converter's result nor the value it discards decodes back
      to the record it was given (for the discarded value: unless the
      record happens to be three "%s" fields). */
  lemma EncodeAsWrittenLosesRecord(fp: ContentFingerprint)
    ensures EncodeAsWritten(fp).None?
    ensures Decode(DiscardedFormat(fp)) == Success(ContentFingerprint("%s", "%s", "%s"))
  {
    JavaSplitJoin(["%s", "%s", "%s"], 0, Separator);
    assert Join(["%s", "%s", "%s"], Separator) + Repeat(Separator, 0) == "%s|%s|%s";
  }

  /** A record the string form can carry: no field holds the separator and
      the digest value is not empty (a trailing empty field is dropped). */
  predicate WellFormed(fp: ContentFingerprint)
  {
    Separator !in fp.property && Separator !in fp.digestType && Separator !in fp.digestValue
    && fp.digestValue != ""
  }

  /** The evidently intended encoder: property|digestType|digestValue. */
  function Encode(fp: ContentFingerprint): (s: string)
    ensures |s| == |fp.property| + |fp.digestType| + |fp.digestValue| + 2
  {
    fp.property + [Separator] + fp.digestType + [Separator] + fp.digestValue
  }

  lemma EncodeIsJoin(fp: ContentFingerprint)
    ensures Encode(fp) == Join([fp.property, fp.digestType, fp.digestValue], Separator)
  {
    var parts := [fp.property, fp.digestType, fp.digestValue];
    assert parts[1..] == [fp.digestType, fp.digestValue];
    assert parts[1..][1..] == [fp.digestValue];
    assert Join(parts[1..][1..], Separator) == fp.digestValue;
    assert Join(parts[1..], Separator) == fp.digestType + [Separator] + fp.digestValue;
  }

  /** Decoding a well-formed record's encoding, followed by any number of
      separators, gives the record back. */
  lemma DecodeEncode(fp: ContentFingerprint, k: nat)
    requires WellFormed(fp)
    ensures Decode(Encode(fp) + Repeat(Separator, k)) == Success(fp)
  {
    var parts := [fp.property, fp.digestType, fp.digestValue];
    EncodeIsJoin(fp);
    JavaSplitJoin(parts, k, Separator);
  }

  /** The converse: whatever decodes is a well-formed record's encoding
      followed only by separators. With DecodeEncode this says exactly
      which strings decode, and to what. */
  lemma EncodeDecode(source: string)
    requires Decode(source).Success?
    ensures var fp := Decode(source).value;
      && WellFormed(fp)
      && |Encode(fp)| <= |source|
      && source == Encode(fp) + Repeat(Separator, |source| - |Encode(fp)|)
  {
    var fp := Decode(source).value;
    var fragments := JavaSplit(source, Separator);
    JavaSplitSpec(source, Separator);
    assert fragments == [fp.property, fp.digestType, fp.digestValue];
    EncodeIsJoin(fp);
    assert Separator !in fragments[0] && Separator !in fragments[1] && Separator !in fragments[2];
  }

  /** Java's split drops a trailing empty field, so an empty digest value
      is refused. */
  lemma DecodeTrailingEmptyFails()
    ensures Decode("p|a|").Failure?
  {
    EncodeIsJoin(ContentFingerprint("p", "a", ""));
    assert "p|a|" == Encode(ContentFingerprint("p", "a", ""));
    var parts := SplitAll("p|a|", Separator);
    SplitAllJoin(["p", "a", ""], Separator);
    assert parts == ["p", "a", ""];
    assert StripTrailingEmpty(parts) == StripTrailingEmpty(["p", "a"]);
  }

  /** An empty field in the middle is kept: "p||h" has an empty digest
      type, and a trailing separator after a full record is ignored. */
  lemma DecodeEmptyMiddleField()
    ensures Decode("p||h") == Success(ContentFingerprint("p", "", "h"))
  {
    var fp := ContentFingerprint("p", "", "h");
    DecodeEncode(fp, 0);
    assert Encode(fp) + Repeat(Separator, 0) == "p||h";
  }

  lemma DecodeTrailingSeparator()
    ensures Decode("p|a|h|") == Success(ContentFingerprint("p", "a", "h"))
  {
    var fp := ContentFingerprint("p", "a", "h");
    DecodeEncode(fp, 1);
    assert Encode(fp) + Repeat(Separator, 1) == "p|a|h|";
  }
}

=== FILE: policy.dfy ===
/** FingerprintPolicy: on every content property update of a node in the
    primary store, drop the node's fingerprints for that property and append
    a made one per configured digest algorithm. */
module FingerprintPolicy {
  import opened Wrappers
  import opened Text
  import opened FileSystem
  import opened Fingerprints

  /** A StoreRef: protocol and identifier. */
  datatype StoreRef = StoreRef(protocol: string, identifier: string)

  /** StoreRef.STORE_REF_WORKSPACE_SPACESSTORE, the only store acted on. */
  const SpacesStore: StoreRef := StoreRef("workspace", "SpacesStore")

  /** An element of the stored fingerprints list: a ContentFingerprint, or
      anything else the property may hold. */
  datatype Element = Print(fp: ContentFingerprint) | Foreign

  /** The fingerprints property: absent, a list, or some other value. */
  datatype PropertyValue = NoValue | ListValue(elements: seq<Element>) | OtherValue

  /** What the policy sees of a node: its store, whether it has the
      fingerprint aspect, and the fingerprints property. */
  datatype Node = Node(store: StoreRef, hasAspect: bool, fingerprints: PropertyValue)

  /** What the policy asks of the node service. */
  datatype Outcome =
    | SetFingerprints(prints: seq<ContentFingerprint>)  // addProperties with the new list
    | RemoveAspect                                      // removeAspect(fingerprint aspect)
    | NoChange
    | NullReader  // getReader gave null: getContentInputStream throws NullPointerException

  /** setDigestTypes: null or "" configure nothing; otherwise the string is
      split on ',' with Java's split, in order and without trimming. */
  function SetDigestTypes(config: Option<string>): (types: seq<string>)
    ensures config.None? || config.value == "" ==> types == []
    ensures NoneContains(types, ',')
    ensures types != [] ==> types[|types| - 1] != ""
    ensures config.Some? && config.value != "" ==>
      && |Join(types, ',')| <= |config.value|
      && config.value == Join(types, ',') + Repeat(',', |config.value| - |Join(types, ',')|)
  {
    if config.None? || config.value == "" then []
    else
      JavaSplitSpec(config.value, ',');
      JavaSplit(config.value, ',')
  }

  /** Two algorithms configured in order; a lone comma configures none,
      since Java's split drops the trailing empty fields. */
  lemma DigestTypesExamples()
    ensures SetDigestTypes(Some("SHA-256,MD5")) == ["SHA-256", "MD5"]
    ensures SetDigestTypes(Some(",")) == []
  {
    var parts := ["SHA-256", "MD5"];
    assert Join(parts, ',') + Repeat(',', 0) == "SHA-256,MD5" by {
      assert parts[1..] == ["MD5"];
    }
    JavaSplitJoin(parts, 0, ',');
    var empties := ["", ""];
    assert Join(empties, ',') == "," by {
      assert empties[1..] == [""];
    }
    SplitAllJoin(empties, ',');
    assert ',' in ",";
    assert StripTrailingEmpty(empties) == StripTrailingEmpty([""]);
  }

  /** The fingerprint elements of a list, in order. */
  function Prints(elements: seq<Element>): (r: seq<ContentFingerprint>)
    ensures |r| <= |elements|
  {
    if |elements| == 0 then []
    else (if elements[0].Print? then [elements[0].fp] else []) + Prints(elements[1..])
  }

  /** The records for properties other than `p`, in order. */
  function KeepOthers(ps: seq<ContentFingerprint>, p: string): seq<ContentFingerprint>
  {
    if |ps| == 0 then []
    else (if ps[0].property != p then [ps[0]] else []) + KeepOthers(ps[1..], p)
  }

  /** The records for property `p`, in order. */
  function OnlyProperty(ps: seq<ContentFingerprint>, p: string): seq<ContentFingerprint>
  {
    if |ps| == 0 then []
    else (if ps[0].property == p then [ps[0]] else []) + OnlyProperty(ps[1..], p)
  }

  /** The fingerprints a node holds as far as the policy is concerned: the
      list's fingerprint elements when the node has the aspect. */
  function NodePrints(node: Node): seq<ContentFingerprint>
  {
    if node.hasAspect && node.fingerprints.ListValue? then Prints(node.fingerprints.elements) else []
  }

  /** The configured types whose digest is available, in order. */
  function AvailableTypes(types: seq<string>, available: string -> bool): seq<string>
  {
    if |types| == 0 then []
    else (if available(types[0]) then [types[0]] else []) + AvailableTypes(types[1..], available)
  }

  /** One made record per configured type, in configuration order;
      unavailable types are skipped. `hash` is the hex digest of the content
      under a type. */
  function FreshPrints(p: string, types: seq<string>, available: string -> bool,
                       hash: (string, Bytes) -> string, content: Bytes): seq<ContentFingerprint>
  {
    if |types| == 0 then []
    else
      (if available(types[0]) then [ContentFingerprint(p, types[0], hash(types[0], content))] else [])
      + FreshPrints(p, types[1..], available, hash, content)
  }

  /** The fresh prints of the content when there is a reader; without one
      nothing is made (the caller fails before this matters when any type
      is available). */
  function Made(p: string, types: seq<string>, available: string -> bool,
                hash: (string, Bytes) -> string, content: Option<Bytes>): seq<ContentFingerprint>
  {
    if content.Some? then FreshPrints(p, types, available, hash, content.value) else []
  }

  /** onContentPropertyUpdate for property `p` whose new content is
      `content`; None is a property without content, for which
      ContentService.getReader returns null. The reader is fetched only for
      an available type, so a missing reader fails exactly when some
      configured type is available. */
  function OnContentPropertyUpdate(node: Node, p: string, types: seq<string>, available: string -> bool,
                                   hash: (string, Bytes) -> string, content: Option<Bytes>): (r: Outcome)
    ensures node.store != SpacesStore ==> r == NoChange
    ensures r.NullReader? <==>
      node.store == SpacesStore && content.None? && AvailableTypes(types, available) != []
    ensures node.store == SpacesStore && !r.NullReader? ==>
      var prints := KeepOthers(NodePrints(node), p) + Made(p, types, available, hash, content);
      && (r.SetFingerprints? <==> |prints| > 0)
      && (r.SetFingerprints? ==> r.prints == prints)
      && (r.RemoveAspect? <==> |prints| == 0 && node.hasAspect)
      && (r.NoChange? <==> |prints| == 0 && !node.hasAspect)
  {
    if node.store != SpacesStore then NoChange
    else if content.None? && AvailableTypes(types, available) != [] then NullReader
    else
      var prints := KeepOthers(NodePrints(node), p) + Made(p, types, available, hash, content);
      if |prints| > 0 then SetFingerprints(prints)
      else if node.hasAspect then RemoveAspect
      else NoChange
  }

  /** The node after the node service carried out an outcome. Adding the
      fingerprints property also applies its aspect; removing the aspect
      removes the property. */
  function Apply(node: Node, outcome: Outcome): Node
  {
    match outcome
    case SetFingerprints(ps) => node.(hasAspect := true, fingerprints := ListValue(Wrap(ps)))
    case RemoveAspect => node.(hasAspect := false, fingerprints := NoValue)
    case NoChange => node
    case NullReader => node
  }

  function Wrap(ps: seq<ContentFingerprint>): (r: seq<Element>)
    ensures |r| == |ps| && forall i :: 0 <= i < |ps| ==> r[i] == Print(ps[i])
  {
    seq(|ps|, i requires 0 <= i < |ps| => Print(ps[i]))
  }

  // ---------------------------------------------------------------------
  // Lemmas about the filters

  lemma {:induction false} PrintsWrap(ps: seq<ContentFingerprint>)
    ensures Prints(Wrap(ps)) == ps
    decreases |ps|
  {
    if |ps| > 0 {
      PrintsWrap(ps[1..]);
      assert Wrap(ps)[1..] == Wrap(ps[1..]);
    }
  }

  lemma {:induction false} KeepOthersAppend(a: seq<ContentFingerprint>, b: seq<ContentFingerprint>, p: string)
    ensures KeepOthers(a + b, p) == KeepOthers(a, p) + KeepOthers(b, p)
    decreases |a|
  {
    if |a| == 0 {
      assert a + b == b;
    } else {
      assert (a + b)[1..] == a[1..] + b;
      KeepOthersAppend(a[1..], b, p);
    }
  }

  lemma {:induction false} OnlyPropertyAppend(a: seq<ContentFingerprint>, b: seq<ContentFingerprint>, p: string)
    ensures OnlyProperty(a + b, p) == OnlyProperty(a, p) + OnlyProperty(b, p)
    decreases |a|
  {
    if |a| == 0 {
      assert a + b == b;
    } else {
      assert (a + b)[0] == a[0];
      assert (a + b)[1..] == a[1..] + b;
      OnlyPropertyAppend(a[1..], b, p);
      var head := if a[0].property == p then [a[0]] else [];
      calc {
        OnlyProperty(a + b, p);
        head + OnlyProperty(a[1..] + b, p);
        head + (OnlyProperty(a[1..], p) + OnlyProperty(b, p));
        (head + OnlyProperty(a[1..], p)) + OnlyProperty(b, p);
      }
    }
  }

  /** Filtering the other properties twice changes nothing more. */
  lemma {:induction false} KeepOthersIdempotent(ps: seq<ContentFingerprint>, p: string)
    ensures KeepOthers(KeepOthers(ps, p), p) == KeepOthers(ps, p)
    decreases |ps|
  {
    if |ps| > 0 {
      KeepOthersIdempotent(ps[1..], p);
      var head := if ps[0].property != p then [ps[0]] else [];
      KeepOthersAppend(head, KeepOthers(ps[1..], p), p);
    }
  }

  /** The records kept for other properties hold none for `p`. */
  lemma {:induction false} OnlyPropertyOfKeepOthers(ps: seq<ContentFingerprint>, p: string)
    ensures OnlyProperty(KeepOthers(ps, p), p) == []
    decreases |ps|
  {
    if |ps| > 0 {
      OnlyPropertyOfKeepOthers(ps[1..], p);
      var head := if ps[0].property != p then [ps[0]] else [];
      OnlyPropertyAppend(head, KeepOthers(ps[1..], p), p);
    }
  }

  /** Dropping the records of `q` keeps every record of another property `p`. */
  lemma {:induction false} OnlyPropertyOfKeepOthersOther(ps: seq<ContentFingerprint>, p: string, q: string)
    requires p != q
    ensures OnlyProperty(KeepOthers(ps, q), p) == OnlyProperty(ps, p)
    decreases |ps|
  {
    if |ps| > 0 {
      OnlyPropertyOfKeepOthersOther(ps[1..], p, q);
      var head := if ps[0].property != q then [ps[0]] else [];
      OnlyPropertyAppend(head, KeepOthers(ps[1..], q), p);
    }
  }

  /** The made records: one per available configured type, in
      configuration order, each for property `p` with that type's digest. */
  lemma {:induction false} FreshPrintsSpec(p: string, types: seq<string>, available: string -> bool,
                                           hash: (string, Bytes) -> string, content: Bytes)
    ensures var made := FreshPrints(p, types, available, hash, content);
            var used := AvailableTypes(types, available);
      && |made| == |used|
      && (forall i :: 0 <= i < |made| ==> made[i] == ContentFingerprint(p, used[i], hash(used[i], content)))
    decreases |types|
  {
    if |types| > 0 {
      FreshPrintsSpec(p, types[1..], available, hash, content);
    }
  }

  /** A type is used exactly when it is configured and available. */
  lemma {:induction false} AvailableTypesMembers(types: seq<string>, available: string -> bool)
    ensures forall t :: t in AvailableTypes(types, available) <==> t in types && available(t)
    decreases |types|
  {
    if |types| > 0 {
      AvailableTypesMembers(types[1..], available);
      assert types == [types[0]] + types[1..];
    }
  }

  lemma {:induction false} FreshPrintsProperty(p: string, types: seq<string>, available: string -> bool,
                                               hash: (string, Bytes) -> string, content: Bytes)
    ensures OnlyProperty(FreshPrints(p, types, available, hash, content), p)
         == FreshPrints(p, types, available, hash, content)
    ensures KeepOthers(FreshPrints(p, types, available, hash, content), p) == []
    decreases |types|
  {
    if |types| > 0 {
      FreshPrintsProperty(p, types[1..], available, hash, content);
      var head := if available(types[0]) then [ContentFingerprint(p, types[0], hash(types[0], content))] else [];
      OnlyPropertyAppend(head, FreshPrints(p, types[1..], available, hash, content), p);
      KeepOthersAppend(head, FreshPrints(p, types[1..], available, hash, content), p);
    }
  }

  // ---------------------------------------------------------------------
  // Properties of the update

  /** Isolation: after an update of `p`, the records of other properties
      are the node's earlier ones in their original order, and the records
      of `p` are exactly the made ones. */
  lemma UpdateIsolation(node: Node, p: string, types: seq<string>, available: string -> bool,
                        hash: (string, Bytes) -> string, content: Bytes)
    requires OnContentPropertyUpdate(node, p, types, available, hash, Some(content)).SetFingerprints?
    ensures var ps := OnContentPropertyUpdate(node, p, types, available, hash, Some(content)).prints;
      && KeepOthers(ps, p) == KeepOthers(NodePrints(node), p)
      && OnlyProperty(ps, p) == FreshPrints(p, types, available, hash, content)
  {
    var kept := KeepOthers(NodePrints(node), p);
    var made := FreshPrints(p, types, available, hash, content);
    KeepOthersAppend(kept, made, p);
    OnlyPropertyAppend(kept, made, p);
    KeepOthersIdempotent(NodePrints(node), p);
    OnlyPropertyOfKeepOthers(NodePrints(node), p);
    FreshPrintsProperty(p, types, available, hash, content);
  }

  /** Re-running the update for the same property and content, on the node
      as the first run left it, changes nothing more. */
  lemma UpdateIdempotent(node: Node, p: string, types: seq<string>, available: string -> bool,
                         hash: (string, Bytes) -> string, content: Bytes)
    ensures var once := Apply(node, OnContentPropertyUpdate(node, p, types, available, hash, Some(content)));
      Apply(once, OnContentPropertyUpdate(once, p, types, available, hash, Some(content))) == once
  {
    var outcome := OnContentPropertyUpdate(node, p, types, available, hash, Some(content));
    var once := Apply(node, outcome);
    var made := FreshPrints(p, types, available, hash, content);
    FreshPrintsProperty(p, types, available, hash, content);
    if outcome.SetFingerprints? {
      RerunRecomputesList(node, p, types, available, hash, content);
      assert OnContentPropertyUpdate(once, p, types, available, hash, Some(content)) == outcome;
    } else if outcome.RemoveAspect? {
      assert |made| == 0;
      assert NodePrints(once) == [];
      assert KeepOthers(NodePrints(once), p) + made == [];
    }
  }

  /** After a stored update, the other properties' prints of the resulting
      node followed by the fresh prints are the stored list again. */
  lemma RerunRecomputesList(node: Node, p: string, types: seq<string>, available: string -> bool,
                            hash: (string, Bytes) -> string, content: Bytes)
    requires OnContentPropertyUpdate(node, p, types, available, hash, Some(content)).SetFingerprints?
    ensures var outcome := OnContentPropertyUpdate(node, p, types, available, hash, Some(content));
      KeepOthers(NodePrints(Apply(node, outcome)), p) + FreshPrints(p, types, available, hash, content)
        == outcome.prints
  {
    var outcome := OnContentPropertyUpdate(node, p, types, available, hash, Some(content));
    var made := FreshPrints(p, types, available, hash, content);
    var kept := KeepOthers(NodePrints(node), p);
    var ps := outcome.prints;
    assert ps == kept + made;
    var once := Apply(node, outcome);
    assert once.hasAspect && once.fingerprints == ListValue(Wrap(ps));
    PrintsWrap(ps);
    assert NodePrints(once) == ps;
    FreshPrintsProperty(p, types, available, hash, content);
    RefilterStored(NodePrints(node), made, p);
  }

  /** Filtering a stored list again drops exactly the fresh records. */
  lemma RefilterStored(prints: seq<ContentFingerprint>, made: seq<ContentFingerprint>, p: string)
    requires KeepOthers(made, p) == []
    ensures KeepOthers(KeepOthers(prints, p) + made, p) == KeepOthers(prints, p)
  {
    KeepOthersAppend(KeepOthers(prints, p), made, p);
    KeepOthersIdempotent(prints, p);
  }

  /** Updating `p` and then another property `q` leaves the records of `p`
      as the first update made them. */
  lemma CrossPropertyIsolation(node: Node, p: string, q: string, types: seq<string>, available: string -> bool,
                               hash: (string, Bytes) -> string, contentP: Bytes, contentQ: Bytes)
    requires p != q
    ensures var n1 := Apply(node, OnContentPropertyUpdate(node, p, types, available, hash, Some(contentP)));
            var n2 := Apply(n1, OnContentPropertyUpdate(n1, q, types, available, hash, Some(contentQ)));
      OnlyProperty(NodePrints(n2), p) == OnlyProperty(NodePrints(n1), p)
  {
    var n1 := Apply(node, OnContentPropertyUpdate(node, p, types, available, hash, Some(contentP)));
    var outcome := OnContentPropertyUpdate(n1, q, types, available, hash, Some(contentQ));
    var kept := KeepOthers(NodePrints(n1), q);
    var made := FreshPrints(q, types, available, hash, contentQ);
    OnlyPropertyOfKeepOthersOther(NodePrints(n1), p, q);
    FreshPrintsOtherProperty(q, p, types, available, hash, contentQ);
    if outcome.SetFingerprints? {
      PrintsWrap(outcome.prints);
      OnlyPropertyAppend(kept, made, p);
    }
  }

  lemma {:induction false} FreshPrintsOtherProperty(q: string, p: string, types: seq<string>,
                                                    available: string -> bool,
                                                    hash: (string, Bytes) -> string, content: Bytes)
    requires p != q
    ensures OnlyProperty(FreshPrints(q, types, available, hash, content), p) == []
    decreases |types|
  {
    if |types| > 0 {
      FreshPrintsOtherProperty(q, p, types[1..], available, hash, content);
      var head := if available(types[0]) then [ContentFingerprint(q, types[0], hash(types[0], content))] else [];
      OnlyPropertyAppend(head, FreshPrints(q, types[1..], available, hash, content), p);
    }
  }
}

=== FILE: store.dfy ===
/** HashBasedFileContentStore: maps `store://` content URLs to files below
    one root directory, lays blobs out by their checksum, reads and deletes
    them. */
module ContentStore {
  import opened Wrappers
  import opened Text
  import opened FileSystem

  /** FileContentStore.STORE_PROTOCOL. */
  const StoreProtocol: string := "store"

  /** The separator between protocol and path in a content URL. */
  const ProtocolDelimiter: string := "://"

  const StorePrefix: string := StoreProtocol + ProtocolDelimiter

  /** The exceptions the store raises. */
  datatype StoreError =
    | UnsupportedContentUrl(url: string)  // UnsupportedContentUrlException
    | ContentIO(failedUrl: Option<string>) // ContentIOException
    | UnsupportedOperation                // UnsupportedOperationException: the store is read-only

  /** The store's configuration: its root directory, the read-only and
      delete-empty-directories switches, and the root location reported to
      the host, which bounds the pruning of empty parent directories. */
  datatype Config = Config(root: Path, readOnly: bool, deleteEmptyDirs: bool, rootLocation: Path)

  /** AbstractContentStore.getContentUrlParts: protocol and relative path,
      split at the first "://"; None when there is no separator. */
  function ContentUrlParts(url: string): (r: Option<(string, string)>)
    ensures r.Some? ==> url == r.value.0 + ProtocolDelimiter + r.value.1
    ensures r.Some? ==> forall j :: 0 <= j < |r.value.0| ==> !OccursAt(url, ProtocolDelimiter, j)
    ensures r.None? <==> forall j :: 0 <= j ==> !OccursAt(url, ProtocolDelimiter, j)
  {
    match IndexOf(url, ProtocolDelimiter)
    case None => None
    case Some(i) =>
      assert url == url[..i] + ProtocolDelimiter + url[i + 3..];
      Some((url[..i], url[i + 3..]))
  }

  /** The URL starts with "store://". */
  predicate HasStorePrefix(url: string)
  {
    |StorePrefix| <= |url| && url[..|StorePrefix|] == StorePrefix
  }

  /** The protocol of a URL is "store" exactly when it starts with
      "store://", and the relative path is then everything after it. */
  lemma StoreUrlParts(url: string)
    ensures ContentUrlParts(url).Some? && ContentUrlParts(url).value.0 == StoreProtocol
            <==> HasStorePrefix(url)
    ensures HasStorePrefix(url) ==> ContentUrlParts(url).value.1 == url[|StorePrefix|..]
  {
    var parts := ContentUrlParts(url);
    if HasStorePrefix(url) {
      FirstDelimiterOfStoreUrl(url);
    }
    if parts.Some? && parts.value.0 == StoreProtocol {
      assert url[..|StorePrefix|] == StorePrefix;
    }
  }

  lemma FirstDelimiterOfStoreUrl(url: string)
    requires HasStorePrefix(url)
    ensures ContentUrlParts(url) == Some((StoreProtocol, url[|StorePrefix|..]))
  {
    assert url[5..8] == ProtocolDelimiter by {
      assert url[5..8] == url[..8][5..8];
    }
    assert OccursAt(url, ProtocolDelimiter, 5);
    var i := IndexOf(url, ProtocolDelimiter);
    assert i.Some?;
    var head := url[..8];
    assert head == "store://";
    forall j | 0 <= j < 5 ensures !OccursAt(url, ProtocolDelimiter, j) {
      assert url[j] == head[j];
      assert head[j] != ':' by {
        assert j == 0 || j == 1 || j == 2 || j == 3 || j == 4;
      }
      if j + 3 <= |url| {
        assert url[j..j + 3][0] == url[j];
      }
    }
    assert i.value == 5;
    assert url[..5] == url[..8][..5];
  }

  /** makeFile: the file a content URL names. Only the store protocol is
      accepted; the file is the root joined with the part after "://". */
  function MakeFile(cfg: Config, url: string): (r: Result<Path, StoreError>)
    ensures r.Success? <==> HasStorePrefix(url)
    ensures r.Success? ==> r.value == Child(cfg.root, url[|StorePrefix|..])
    ensures r.Failure? ==> r.error == UnsupportedContentUrl(url)
  {
    StoreUrlParts(url);
    var parts := ContentUrlParts(url);
    if parts.None? || parts.value.0 != StoreProtocol then Failure(UnsupportedContentUrl(url))
    else Success(Child(cfg.root, parts.value.1))
  }

  /** The blob's path relative to the root: h[0..2]/h[2..4]/h[4..6]/h.bin.
      Substrings clamp, so a short checksum gives short or empty levels. */
  function BlobPath(checksum: string): (rel: string)
    ensures |rel| == Min(|checksum|, 6) + 3 + |checksum| + 4
    ensures EndsWith(rel, checksum + ".bin")
  {
    var levels := Substring(checksum, 0, 2) + "/" + Substring(checksum, 2, 4) + "/" + Substring(checksum, 4, 6) + "/";
    assert levels + checksum + ".bin" == levels + (checksum + ".bin");
    levels + checksum + ".bin"
  }

  /** A checksum of six or more characters is laid out in three levels of
      two characters each. */
  lemma BlobPathLayout(checksum: string)
    requires 6 <= |checksum|
    ensures BlobPath(checksum)
         == checksum[0..2] + "/" + checksum[2..4] + "/" + checksum[4..6] + "/" + checksum + ".bin"
  {
  }

  /** createContentUrl: the content URL of a checksum, the store prefix
      followed by the blob path. The temp file argument of the Java method
      is unused and is not modelled. */
  function CreateContentUrl(checksum: string): (url: string)
    ensures HasStorePrefix(url)
    ensures url[|StorePrefix|..] == BlobPath(checksum)
  {
    var u := StorePrefix + BlobPath(checksum);
    assert u[..|StorePrefix|] == StorePrefix;
    u
  }

  /** The file a checksum's blob lives in. */
  function BlobFile(cfg: Config, checksum: string): Path
  {
    Child(cfg.root, BlobPath(checksum))
  }

  /** Every URL createContentUrl builds is accepted by makeFile and names
      the blob file of its checksum, below the root. */
  lemma CreatedUrlResolves(cfg: Config, checksum: string)
    ensures MakeFile(cfg, CreateContentUrl(checksum)) == Success(BlobFile(cfg, checksum))
    ensures Below(cfg.root, BlobFile(cfg, checksum))
  {
    ChildIsBelow(cfg.root, BlobPath(checksum));
  }

  /** Distinct checksums have distinct blob paths. */
  lemma BlobPathInjective(h1: string, h2: string)
    requires BlobPath(h1) == BlobPath(h2)
    ensures h1 == h2
  {
    assert |h1| == |h2|;
    assert h1 == (h1 + ".bin")[..|h1|];
    assert h2 == (h2 + ".bin")[..|h2|];
  }

  /** Distinct checksums give distinct content URLs, so a URL identifies
      its checksum. */
  lemma CreateContentUrlInjective(h1: string, h2: string)
    requires CreateContentUrl(h1) == CreateContentUrl(h2)
    ensures h1 == h2
  {
    BlobPathInjective(h1, h2);
  }

  /** Distinct checksums have distinct blob files. */
  lemma BlobFileInjective(cfg: Config, h1: string, h2: string)
    requires BlobFile(cfg, h1) == BlobFile(cfg, h2)
    ensures h1 == h2
  {
    var prefix := cfg.root + "/";
    assert BlobFile(cfg, h1) == prefix + BlobPath(h1);
    assert BlobFile(cfg, h2) == prefix + BlobPath(h2);
    assert BlobPath(h1) == BlobFile(cfg, h1)[|prefix|..];
    assert BlobPath(h2) == BlobFile(cfg, h2)[|prefix|..];
    BlobPathInjective(h1, h2);
  }

  /** The layout on the leading characters of the SHA-1 digest of the
      ASCII bytes "hello" (aaf4c61d...434d), cut to its first six. */
  lemma SixCharacterBlobPath()
    ensures BlobPath("aaf4c6") == "aa/f4/c6/aaf4c6.bin"
  {
    BlobPathLayout("aaf4c6");
    assert "aaf4c6"[0..2] == "aa";
    assert "aaf4c6"[2..4] == "f4";
    assert "aaf4c6"[4..6] == "c6";
  }

  /** A content URL spelled out: the literal "store://" and the blob path. */
  lemma CreateContentUrlSpelled(checksum: string)
    ensures CreateContentUrl(checksum) == "store://" + BlobPath(checksum)
  {
  }

  /** The same checksum as a full content URL. */
  lemma SixCharacterChecksumUrl()
    ensures CreateContentUrl("aaf4c6") == "store://aa/f4/c6/aaf4c6.bin"
  {
    CreateContentUrlSpelled("aaf4c6");
    SixCharacterBlobPath();
  }

  /** A checksum shorter than six characters gives short or empty levels
      rather than an error. */
  lemma ShortChecksumBlobPath()
    ensures BlobPath("abc") == "ab/c//abc.bin"
  {
    assert Substring("abc", 0, 2) == "ab";
    assert Substring("abc", 2, 4) == "c";
    assert Substring("abc", 4, 6) == "";
  }

  /** The same short checksum as a full content URL. */
  lemma ShortChecksumUrl()
    ensures CreateContentUrl("abc") == "store://ab/c//abc.bin"
  {
    CreateContentUrlSpelled("abc");
    ShortChecksumBlobPath();
  }

  /** An empty checksum still yields a URL, with three empty levels. */
  lemma EmptyChecksumUrl()
    ensures CreateContentUrl("") == "store://///.bin"
  {
    CreateContentUrlSpelled("");
    assert BlobPath("") == "///.bin";
  }

  /** What getReader hands back. */
  datatype Reader =
    | FileReader(url: string, file: Path)  // FileContentReader over an existing file
    | EmptyReader(url: string)             // EmptyContentReader for a missing file

  /** The bytes a reader delivers. */
  function ReadAll(fs: Fs, reader: Reader): Bytes
  {
    match reader
    case FileReader(_, file) => if file in fs then fs[file] else []
    case EmptyReader(_) => []
  }

  /** getReader. A null URL fails inside the URL parsing with something
      other than UnsupportedContentUrlException, and `fault` stands for any
      other failure of the file layer; both surface as ContentIOException.
      An UnsupportedContentUrlException goes out unchanged. */
  function GetReader(cfg: Config, fs: Fs, url: Option<string>, fault: bool): (r: Result<Reader, StoreError>)
    ensures url.None? ==> r == Failure(ContentIO(None))
    ensures url.Some? && !HasStorePrefix(url.value) ==> r == Failure(UnsupportedContentUrl(url.value))
    ensures url.Some? && HasStorePrefix(url.value) && fault ==> r == Failure(ContentIO(url))
    ensures r.Success? ==> url.Some? && HasStorePrefix(url.value) && !fault && r.value.url == url.value
    ensures r.Success? ==>
      var file := Child(cfg.root, url.value[|StorePrefix|..]);
      (r.value.FileReader? <==> file in fs) && (r.value.FileReader? ==> r.value.file == file)
  {
    match url
    case None => Failure(ContentIO(None))
    case Some(u) =>
      match MakeFile(cfg, u)
      case Failure(e) => Failure(e)
      case Success(file) =>
        if fault then Failure(ContentIO(url))
        else if file in fs then Success(FileReader(u, file))
        else Success(EmptyReader(u))
  }

  /** Reading a URL whose file is missing is not an error: it yields an
      empty reader and no bytes. */
  lemma MissingFileReadsEmpty(cfg: Config, fs: Fs, url: string)
    requires HasStorePrefix(url) && Child(cfg.root, url[|StorePrefix|..]) !in fs
    ensures GetReader(cfg, fs, Some(url), false) == Success(EmptyReader(url))
    ensures ReadAll(fs, GetReader(cfg, fs, Some(url), false).value) == []
  {
  }

  /** isWriteSupported. */
  function IsWriteSupported(): bool
  {
    true
  }

  /** The request to Deleter.deleteEmptyParents: prune the empty directories
      above `file`, stopping at `bound`. */
  datatype Prune = Prune(file: Path, bound: Path)

  /** The outcome of a delete: the returned flag, the filesystem after it and
      the pruning requested. */
  datatype Deletion = Deletion(deleted: bool, fs: Fs, prune: Option<Prune>)

  /** delete. `removeSucceeds` is what File.delete() reports for an existing
      file. A missing file counts as deleted. */
  function Delete(cfg: Config, fs: Fs, url: string, removeSucceeds: bool): (r: Result<Deletion, StoreError>)
    ensures cfg.readOnly ==> r == Failure(UnsupportedOperation)
    ensures !cfg.readOnly && !HasStorePrefix(url) ==> r == Failure(UnsupportedContentUrl(url))
    ensures r.Success? <==> !cfg.readOnly && HasStorePrefix(url)
    ensures r.Success? ==>
      var file := Child(cfg.root, url[|StorePrefix|..]);
      && (file !in fs ==> r.value.deleted && r.value.fs == fs)
      && (file in fs ==> r.value.deleted == removeSucceeds)
      && (r.value.deleted ==> file !in r.value.fs)
      && (!r.value.deleted ==> r.value.fs == fs)
      && (forall p :: p != file ==> (p in r.value.fs <==> p in fs))
      && (forall p :: p in r.value.fs ==> r.value.fs[p] == fs[p])
      && (r.value.prune.Some? <==> cfg.deleteEmptyDirs && r.value.deleted)
      && (r.value.prune.Some? ==> r.value.prune.value == Prune(file, cfg.rootLocation))
  {
    if cfg.readOnly then Failure(UnsupportedOperation)
    else
      match MakeFile(cfg, url)
      case Failure(e) => Failure(e)
      case Success(file) =>
        var deleted := file !in fs || removeSucceeds;
        var fs' := if deleted then fs - {file} else fs;
        var prune := if cfg.deleteEmptyDirs && deleted then Some(Prune(file, cfg.rootLocation)) else None;
        Success(Deletion(deleted, fs', prune))
  }

  /** A URL that was deleted reads afterwards as missing: an empty reader
      with no bytes. */
  lemma DeletedUrlReadsEmpty(cfg: Config, fs: Fs, url: string, removeSucceeds: bool)
    requires Delete(cfg, fs, url, removeSucceeds).Success?
    requires Delete(cfg, fs, url, removeSucceeds).value.deleted
    ensures var after := Delete(cfg, fs, url, removeSucceeds).value.fs;
      && GetReader(cfg, after, Some(url), false) == Success(EmptyReader(url))
      && ReadAll(after, GetReader(cfg, after, Some(url), false).value) == []
  {
  }
}

=== FILE: text.dfy ===
/** The parts of java.lang.String, java.lang.Long, java.lang.Boolean and
    commons-lang StringUtils that the content store relies on, written out
    over `string` (a `seq<char>`). */
module Text {
  import opened Wrappers

  function Min(a: int, b: int): int { if a <= b then a else b }

  /** String.endsWith. */
  predicate EndsWith(s: string, suffix: string)
  {
    |suffix| <= |s| && s[|s| - |suffix|..] == suffix
  }

  // ---------------------------------------------------------------------
  // Searching

  /** `pat` occurs in `s` starting at index `i`. */
  predicate OccursAt(s: string, pat: string, i: nat) {
    i + |pat| <= |s| && s[i..i + |pat|] == pat
  }

  /** String.indexOf(pat, from): the first occurrence at or after `from`. */
  function IndexOfFrom(s: string, pat: string, from: nat): (r: Option<nat>)
    ensures r.Some? ==> from <= r.value && OccursAt(s, pat, r.value)
    ensures r.Some? ==> forall j :: from <= j < r.value ==> !OccursAt(s, pat, j)
    ensures r.None? ==> forall j :: from <= j ==> !OccursAt(s, pat, j)
    decreases |s| - from
  {
    if from + |pat| > |s| then None
    else if OccursAt(s, pat, from) then Some(from)
    else IndexOfFrom(s, pat, from + 1)
  }

  /** String.indexOf(pat): the first occurrence, or None for -1. */
  function IndexOf(s: string, pat: string): (r: Option<nat>)
    ensures r.Some? ==> OccursAt(s, pat, r.value)
    ensures r.Some? ==> forall j :: 0 <= j < r.value ==> !OccursAt(s, pat, j)
    ensures r.None? ==> forall j :: 0 <= j ==> !OccursAt(s, pat, j)
  {
    IndexOfFrom(s, pat, 0)
  }

  // ---------------------------------------------------------------------
  // StringUtils.substring

  /** StringUtils.substring(s, start, end) for non-negative indices: both
      indices are clamped to the length, so it never fails. */
  function Substring(s: string, start: nat, end: nat): (r: string)
    requires start <= end
    ensures |r| == Min(end, |s|) - Min(start, |s|)
    ensures end <= |s| ==> r == s[start..end]
    ensures |s| <= start ==> r == ""
    ensures start <= |s| ==> r <= s[start..]
  {
    if |s| <= start then "" else s[start..Min(end, |s|)]
  }

  // ---------------------------------------------------------------------
  // String.split with a one-character separator

  /** A string made of `k` copies of `c`. */
  function Repeat(c: char, k: nat): (r: string)
    ensures |r| == k && forall i :: 0 <= i < k ==> r[i] == c
  {
    seq(k, _ => c)
  }

  /** `k` empty strings. */
  function Empties(k: nat): (r: seq<string>)
    ensures |r| == k && forall i :: 0 <= i < k ==> r[i] == ""
  {
    seq(k, _ => "")
  }

  /** Every part of `parts` is free of the separator `d`. */
  predicate NoneContains(parts: seq<string>, d: char) {
    forall i :: 0 <= i < |parts| ==> d !in parts[i]
  }

  /** The parts between successive occurrences of `d`, keeping empty
      parts at both ends: "a||b|" gives ["a", "", "b", ""]. */
  function SplitAll(s: string, d: char): (parts: seq<string>)
    ensures |parts| >= 1
    decreases |s|
  {
    if |s| == 0 then [""]
    else
      var rest := SplitAll(s[1..], d);
      if s[0] == d then [""] + rest
      else [[s[0]] + rest[0]] + rest[1..]
  }

  /** String.join(d, parts). */
  function Join(parts: seq<string>, d: char): string
  {
    if |parts| == 0 then ""
    else if |parts| == 1 then parts[0]
    else parts[0] + [d] + Join(parts[1..], d)
  }

  /** Drops the empty parts at the end, as String.split with limit 0 does. */
  function StripTrailingEmpty(parts: seq<string>): (r: seq<string>)
    ensures |r| <= |parts| && r == parts[..|r|]
    ensures |r| > 0 ==> r[|r| - 1] != ""
    ensures forall i :: |r| <= i < |parts| ==> parts[i] == ""
  {
    if |parts| > 0 && parts[|parts| - 1] == "" then StripTrailingEmpty(parts[..|parts| - 1])
    else parts
  }

  /** String.split(d) (limit 0): a string without `d` comes back whole, even
      when empty; otherwise the split parts less the trailing empty ones. */
  function JavaSplit(s: string, d: char): seq<string>
  {
    if d !in s then [s] else StripTrailingEmpty(SplitAll(s, d))
  }

  lemma {:induction false} SplitAllPartsFree(s: string, d: char)
    ensures NoneContains(SplitAll(s, d), d)
    decreases |s|
  {
    if |s| > 0 {
      SplitAllPartsFree(s[1..], d);
    }
  }

  /** Joining the parts of a split gives back the string. */
  lemma {:induction false} JoinSplitAll(s: string, d: char)
    ensures Join(SplitAll(s, d), d) == s
    decreases |s|
  {
    if |s| > 0 {
      var rest := SplitAll(s[1..], d);
      JoinSplitAll(s[1..], d);
      if s[0] == d {
        assert SplitAll(s, d) == [""] + rest;
        assert ([""] + rest)[1..] == rest;
      } else if |rest| == 1 {
        assert SplitAll(s, d) == [[s[0]] + rest[0]];
      } else {
        var parts := SplitAll(s, d);
        assert parts == [[s[0]] + rest[0]] + rest[1..];
        assert parts[1..] == rest[1..];
        assert Join(rest, d) == rest[0] + [d] + Join(rest[1..], d);
        assert s == [s[0]] + s[1..];
      }
    }
  }

  lemma {:induction false} SplitAllNoSeparator(a: string, d: char)
    requires d !in a
    ensures SplitAll(a, d) == [a]
    decreases |a|
  {
    if |a| > 0 {
      SplitAllNoSeparator(a[1..], d);
      assert [a[0]] + a[1..] == a;
    }
  }

  lemma {:induction false} SplitAllAfterPart(a: string, d: char, b: string)
    requires d !in a
    ensures SplitAll(a + [d] + b, d) == [a] + SplitAll(b, d)
    decreases |a|
  {
    if |a| == 0 {
      assert a + [d] + b == [d] + b;
      assert ([d] + b)[1..] == b;
    } else {
      var s := a + [d] + b;
      assert s[1..] == a[1..] + [d] + b;
      SplitAllAfterPart(a[1..], d, b);
      assert [a[0]] + a[1..] == a;
    }
  }

  /** Splitting a join of separator-free parts gives back the parts. */
  lemma {:induction false} SplitAllJoin(parts: seq<string>, d: char)
    requires |parts| >= 1 && NoneContains(parts, d)
    ensures SplitAll(Join(parts, d), d) == parts
    decreases |parts|
  {
    if |parts| == 1 {
      SplitAllNoSeparator(parts[0], d);
    } else {
      SplitAllJoin(parts[1..], d);
      SplitAllAfterPart(parts[0], d, Join(parts[1..], d));
      assert [parts[0]] + parts[1..] == parts;
    }
  }

  lemma {:induction false} JoinSnoc(q: seq<string>, x: string, d: char)
    requires |q| >= 1
    ensures Join(q + [x], d) == Join(q, d) + [d] + x
    decreases |q|
  {
    if |q| == 1 {
      assert (q + [x])[1..] == [x];
    } else {
      JoinSnoc(q[1..], x, d);
      assert (q + [x])[1..] == q[1..] + [x];
    }
  }

  /** Trailing empty parts join to trailing separators. */
  lemma {:induction false} JoinEmpties(q: seq<string>, k: nat, d: char)
    requires |q| >= 1
    ensures Join(q + Empties(k), d) == Join(q, d) + Repeat(d, k)
    decreases k
  {
    if k == 0 {
      assert q + Empties(0) == q;
    } else {
      JoinEmpties(q, k - 1, d);
      assert q + Empties(k) == (q + Empties(k - 1)) + [""];
      JoinSnoc(q + Empties(k - 1), "", d);
      assert Repeat(d, k) == Repeat(d, k - 1) + [d];
    }
  }

  lemma {:induction false} StripAppendedEmpties(parts: seq<string>, k: nat)
    requires |parts| >= 1 && parts[|parts| - 1] != ""
    ensures StripTrailingEmpty(parts + Empties(k)) == parts
    decreases k
  {
    if k > 0 {
      var all := parts + Empties(k);
      assert all[|all| - 1] == "";
      assert all[..|all| - 1] == parts + Empties(k - 1);
      StripAppendedEmpties(parts, k - 1);
    } else {
      assert parts + Empties(0) == parts;
    }
  }

  /** What String.split returns: separator-free parts, the last of them
      non-empty, that join back to the string up to a run of trailing
      separators. */
  lemma JavaSplitSpec(s: string, d: char)
    ensures var r := JavaSplit(s, d);
      && NoneContains(r, d)
      && (|r| > 0 ==> r[|r| - 1] != "" || |r| == 1)
      && |Join(r, d)| <= |s|
      && s == Join(r, d) + Repeat(d, |s| - |Join(r, d)|)
  {
    if d !in s {
      assert s + Repeat(d, 0) == s;
    } else {
      var r := StripTrailingEmpty(SplitAll(s, d));
      var k := SplitStripped(s, d, r);
      assert |Join(r, d)| + k == |s|;
    }
  }

  lemma SplitStripped(s: string, d: char, r: seq<string>) returns (k: nat)
    requires r == StripTrailingEmpty(SplitAll(s, d))
    ensures NoneContains(r, d)
    ensures s == Join(r, d) + Repeat(d, k)
  {
    var parts := SplitAll(s, d);
    SplitAllPartsFree(s, d);
    JoinSplitAll(s, d);
    StripIsPrefixOfEmpties(parts, r);
    k := JoinOfStripped(parts, r, d);
    assert NoneContains(r, d) by {
      forall i | 0 <= i < |r| ensures d !in r[i] {
        assert r[i] == parts[i];
      }
    }
  }

  lemma JoinOfStripped(parts: seq<string>, r: seq<string>, d: char) returns (k: nat)
    requires |r| <= |parts| && 1 <= |parts| && parts == r + Empties(|parts| - |r|)
    ensures Join(parts, d) == Join(r, d) + Repeat(d, k)
  {
    var m := |parts| - |r|;
    if |r| >= 1 {
      JoinEmpties(r, m, d);
      k := m;
    } else {
      assert parts == [""] + Empties(m - 1);
      JoinEmpties([""], m - 1, d);
      k := m - 1;
    }
  }

  lemma StripIsPrefixOfEmpties(parts: seq<string>, r: seq<string>)
    requires r == StripTrailingEmpty(parts)
    ensures parts == r + Empties(|parts| - |r|)
  {
    var e := Empties(|parts| - |r|);
    assert forall i :: 0 <= i < |parts| ==> parts[i] == (r + e)[i];
  }

  /** The converse: separator-free parts whose last part is non-empty,
      joined and followed by any number of separators, split back to
      exactly those parts. */
  lemma JavaSplitJoin(parts: seq<string>, k: nat, d: char)
    requires |parts| >= 1 && NoneContains(parts, d) && parts[|parts| - 1] != ""
    ensures JavaSplit(Join(parts, d) + Repeat(d, k), d) == parts
  {
    var s := Join(parts, d) + Repeat(d, k);
    JoinEmpties(parts, k, d);
    SplitAllJoin(parts + Empties(k), d);
    StripAppendedEmpties(parts, k);
    if d !in s {
      SplitAllNoSeparator(s, d);
    }
  }

  // ---------------------------------------------------------------------
  // Long.toString and its inverse

  predicate IsDigit(c: char) { '0' <= c <= '9' }

  predicate AllDigits(s: string) { forall i :: 0 <= i < |s| ==> IsDigit(s[i]) }

  function DigitChar(n: nat): (c: char)
    requires n < 10
    ensures IsDigit(c)
  {
    (48 + n) as char
  }

  function DigitValue(c: char): nat
    requires IsDigit(c)
  {
    c as int - 48
  }

  /** The decimal digits of `n`, most significant first, without leading zeros. */
  function NatToString(n: nat): (r: string)
    ensures |r| >= 1 && AllDigits(r)
    decreases n
  {
    if n < 10 then [DigitChar(n)] else NatToString(n / 10) + [DigitChar(n % 10)]
  }

  /** The value of a non-empty run of decimal digits. */
  function ParseDigits(s: string): nat
    requires |s| >= 1 && AllDigits(s)
  {
    if |s| == 1 then DigitValue(s[0])
    else ParseDigits(s[..|s| - 1]) * 10 + DigitValue(s[|s| - 1])
  }

  /** Long.toString(n). */
  function LongToString(n: int): string
  {
    if n < 0 then "-" + NatToString(-n) else NatToString(n)
  }

  /** Long.parseLong(s), with None for a NumberFormatException. */
  function ParseLong(s: string): Option<int>
  {
    if |s| >= 2 && s[0] == '-' && AllDigits(s[1..]) then Some(0 - ParseDigits(s[1..]) as int)
    else if |s| >= 1 && AllDigits(s) then Some(ParseDigits(s))
    else None
  }

  lemma {:induction false} ParseNatToString(n: nat)
    ensures ParseDigits(NatToString(n)) == n
    decreases n
  {
    if n >= 10 {
      var s := NatToString(n);
      ParseNatToString(n / 10);
      assert s[..|s| - 1] == NatToString(n / 10);
    }
  }

  /** Long.toString is undone by Long.parseLong. */
  lemma ParseLongToString(n: int)
    ensures ParseLong(LongToString(n)) == Some(n)
  {
    if n < 0 {
      ParseNatToString(-n);
      assert LongToString(n)[1..] == NatToString(-n);
    } else {
      ParseNatToString(n);
    }
  }

  // ---------------------------------------------------------------------
  // Boolean.parseBoolean

  /** Character.toLowerCase restricted to ASCII letters. */
  function AsciiLower(c: char): char
  {
    if 'A' <= c <= 'Z' then (c as int + 32) as char else c
  }

  /** String.equalsIgnoreCase, folding ASCII letters only. */
  predicate EqualsIgnoreCase(a: string, b: string)
  {
    |a| == |b| && forall i :: 0 <= i < |a| ==> AsciiLower(a[i]) == AsciiLower(b[i])
  }

  /** Boolean.parseBoolean: true exactly for a non-null "true" in any case. */
  predicate ParseBoolean(s: Option<string>)
  {
    s.Some? && EqualsIgnoreCase(s.value, "true")
  }
}

=== FILE: wrappers.dfy ===
/** Optional values (Java's nullable references) and results that carry
    either a value or the exception the Java code would have thrown. */
module Wrappers {

  /** A Java reference that may be null: `None` stands for null. */
  datatype Option<+T> = None | Some(value: T)

  /** The outcome of a call that either returns a value or throws. */
  datatype Result<+T, +E> = Success(value: T) | Failure(error: E)
}

=== FILE: writer.dfy ===
/** The two write sessions of the store: HashBasedContentWriter (the older
    one, built by getWriterInternal) and HashBasedFileContentWriter. Both
    stream into a temporary file while feeding a message digest. */
module ContentWriter {
  import opened Wrappers
  import opened FileSystem
  import opened ContentStore

  /** The URL the newer writer reports before it is finalized. */
  const Placeholder: string := "dedup://dummy"

  /** The digest algorithm the older writer always uses. */
  const LegacyDigestType: string := "SHA-1"

  /** Which writer class: the older one with plain URL and size fields, or
      the newer one with a placeholder URL, a live size and a configured
      digest algorithm. */
  datatype Kind = Plain | File(digestType: string)

  /** A registered stream listener; `tracksRollback` tells the listener
      that keeps the transaction's post-rollback deletion set from the one
      that does not. */
  datatype Listener = Listener(tracksRollback: bool)

  /** A MessageDigest: its algorithm and the bytes fed to it so far. */
  datatype Digest = Digest(algorithm: string, fed: Bytes)

  /** A writer's state: the recorded URL and size fields, the temporary
      file and digest, the mimetype and encoding the host sets, and the
      listeners registered at construction. */
  datatype Writer = Writer(
    kind: Kind,
    url: Option<string>,
    size: int,
    temp: Option<Path>,
    digest: Option<Digest>,
    mimetype: Option<string>,
    encoding: Option<string>,
    listeners: seq<Listener>)

  /** The digest algorithm a writer opens its channel with. */
  function DigestAlgorithm(kind: Kind): string
  {
    match kind
    case Plain => LegacyDigestType
    case File(t) => t
  }

  /** new HashBasedContentWriter(store, existingReader): what
      getWriterInternal returns. It registers the listener without
      rollback bookkeeping. */
  function GetWriterInternal(): (w: Writer)
    ensures w.kind == Plain && w.url.None? && w.size == 0
    ensures w.temp.None? && w.digest.None?
    ensures w.listeners == [Listener(false)]
  {
    Writer(Plain, None, 0, None, None, None, None, [Listener(false)])
  }

  /** new HashBasedFileContentWriter(store, existingReader, digestType):
      exactly one finalize listener, the one of its own package, which
      keeps no rollback set. */
  function NewFileWriter(digestType: string): (w: Writer)
    ensures w.kind == File(digestType) && w.url.None? && w.size == 0
    ensures w.temp.None? && w.digest.None?
    ensures w.listeners == [Listener(false)]
  {
    Writer(File(digestType), None, 0, None, None, None, None, [Listener(false)])
  }

  /** getContentUrl: the older writer returns its field (null until set);
      the newer one falls back to the placeholder. */
  function ContentUrl(w: Writer): Option<string>
  {
    match w.kind
    case Plain => w.url
    case File(_) => if w.url.None? then Some(Placeholder) else w.url
  }

  /** setContentUrl. */
  function SetContentUrl(w: Writer, url: string): Writer
  {
    w.(url := Some(url))
  }

  /** getSize: the older writer returns its field; the newer one the live
      length of the temporary file while it exists. */
  function Size(w: Writer, fs: Fs): int
  {
    match w.kind
    case Plain => w.size
    case File(_) => if w.temp.Some? && w.temp.value in fs then |fs[w.temp.value]| else w.size
  }

  /** setSize. */
  function SetSize(w: Writer, size: int): Writer
  {
    w.(size := size)
  }

  /** setMimetype and setEncoding, inherited from the host's accessor. */
  function SetMetadata(w: Writer, mimetype: Option<string>, encoding: Option<string>): Writer
  {
    w.(mimetype := mimetype, encoding := encoding)
  }

  /** The ContentData handed back to the host's property layer. */
  datatype ContentData = ContentData(url: Option<string>, mimetype: Option<string>, size: int, encoding: Option<string>)

  /** getContentData: built from the getters, not from the raw fields. */
  function GetContentData(w: Writer, fs: Fs): ContentData
  {
    ContentData(ContentUrl(w), w.mimetype, Size(w, fs), w.encoding)
  }

  /** Before any setContentUrl the newer writer reports the placeholder and
      the older one null; afterwards both report the last URL set. */
  lemma ContentUrlLastSet(w: Writer, u: string, v: string, digestType: string)
    ensures ContentUrl(NewFileWriter(digestType)) == Some(Placeholder)
    ensures ContentUrl(GetWriterInternal()) == None
    ensures ContentUrl(SetContentUrl(w, u)) == Some(u)
    ensures ContentUrl(SetContentUrl(SetContentUrl(w, u), v)) == Some(v)
  {
  }

  /** The newer writer's size follows the temporary file while it exists and
      the recorded size otherwise; the older writer's size is the recorded
      one whatever the filesystem holds (0 initially). */
  lemma SizeSources(w: Writer, fs: Fs, other: Fs, n: int)
    ensures w.kind.File? && w.temp.Some? && w.temp.value in fs ==> Size(w, fs) == |fs[w.temp.value]|
    ensures w.kind.File? && (w.temp.None? || w.temp.value !in fs) ==> Size(w, fs) == w.size
    ensures w.kind.Plain? ==> Size(w, fs) == Size(w, other) == w.size
    ensures w.kind.Plain? ==> Size(SetSize(w, n), fs) == n
    ensures Size(GetWriterInternal(), fs) == 0
  {
  }

  /** getContentData reports the URL, mimetype, size and encoding the
      getters report at that moment. */
  lemma ContentDataFromGetters(w: Writer, fs: Fs)
    ensures GetContentData(w, fs).url == ContentUrl(w)
    ensures GetContentData(w, fs).size == Size(w, fs)
    ensures GetContentData(w, fs).mimetype == w.mimetype && GetContentData(w, fs).encoding == w.encoding
  {
  }

  /** The temporary file and the digest hold the same bytes: the content is
      digested in the one pass that writes it. */
  predicate InSync(w: Writer, fs: Fs)
  {
    && w.temp.Some? && w.digest.Some?
    && w.temp.value in fs
    && fs[w.temp.value] == w.digest.value.fed
  }

  /** The result of getDirectWritableChannel: the channel opened, or a
      ContentIOException was thrown, with the state the writer was left in. */
  datatype Channel = Opened(w: Writer, fs: Fs) | ChannelFailed(w: Writer, fs: Fs)

  /** getDirectWritableChannel: create a fresh temporary file (`tempFails`
      when TempFileProvider cannot), then a digest of the writer's algorithm
      (`available` tells which algorithms the platform offers). Any failure
      is a ContentIOException; the temporary file field is assigned before
      the digest is looked up. */
  function OpenChannel(w: Writer, fs: Fs, tempPath: Path, tempFails: bool, available: string -> bool): (r: Channel)
    requires tempPath !in fs
    ensures r.Opened? <==> !tempFails && available(DigestAlgorithm(w.kind))
    ensures r.Opened? ==> InSync(r.w, r.fs) && r.w.temp == Some(tempPath) && r.fs[tempPath] == []
    ensures r.Opened? ==> r.w.digest.value.algorithm == DigestAlgorithm(w.kind)
    ensures r.w.url == w.url && r.w.size == w.size && r.w.kind == w.kind && r.w.listeners == w.listeners
    ensures tempFails ==> r == ChannelFailed(w, fs)
    ensures !tempFails ==> r.fs == fs[tempPath := []] && r.w.temp == Some(tempPath)
  {
    if tempFails then ChannelFailed(w, fs)
    else
      var fs' := fs[tempPath := []];
      var w' := w.(temp := Some(tempPath));
      var algorithm := DigestAlgorithm(w.kind);
      if !available(algorithm) then ChannelFailed(w', fs')
      else Opened(w'.(digest := Some(Digest(algorithm, []))), fs')
  }

  /** A write through the DigestOutputStream: the bytes go to the temporary
      file and into the digest together. */
  function WriteBytes(w: Writer, fs: Fs, data: Bytes): (r: (Writer, Fs))
    requires InSync(w, fs)
    ensures InSync(r.0, r.1)
    ensures r.0.temp == w.temp && r.1[w.temp.value] == fs[w.temp.value] + data
    ensures r.0.digest.value.algorithm == w.digest.value.algorithm
    ensures r.0.url == w.url && r.0.size == w.size && r.0.kind == w.kind
    ensures forall p :: p != w.temp.value ==> (p in r.1 <==> p in fs) && (p in fs ==> r.1[p] == fs[p])
  {
    var tmp := w.temp.value;
    var d := w.digest.value;
    (w.(digest := Some(Digest(d.algorithm, d.fed + data))), fs[tmp := fs[tmp] + data])
  }

  /** All chunks written one after the other. */
  function Concat(chunks: seq<Bytes>): Bytes
  {
    if |chunks| == 0 then [] else Concat(chunks[..|chunks| - 1]) + chunks[|chunks| - 1]
  }

  function WriteAll(w: Writer, fs: Fs, chunks: seq<Bytes>): (r: (Writer, Fs))
    requires InSync(w, fs)
    ensures InSync(r.0, r.1)
    decreases |chunks|
  {
    if |chunks| == 0 then (w, fs)
    else
      var before := WriteAll(w, fs, chunks[..|chunks| - 1]);
      WriteBytes(before.0, before.1, chunks[|chunks| - 1])
  }

  /** After any sequence of writes the temporary file holds everything
      written, the digest has been fed exactly those bytes, and no other
      file has changed. */
  lemma {:induction false} WriteAllAppends(w: Writer, fs: Fs, chunks: seq<Bytes>)
    requires InSync(w, fs)
    ensures var r := WriteAll(w, fs, chunks);
      && r.0.temp == w.temp
      && r.1[w.temp.value] == fs[w.temp.value] + Concat(chunks)
      && r.0.digest.value.fed == w.digest.value.fed + Concat(chunks)
      && r.0.digest.value.algorithm == w.digest.value.algorithm
      && r.0.url == w.url && r.0.size == w.size && r.0.kind == w.kind
      && (forall p :: p != w.temp.value ==> (p in r.1 <==> p in fs) && (p in fs ==> r.1[p] == fs[p]))
    decreases |chunks|
  {
    if |chunks| > 0 {
      WriteAllAppends(w, fs, chunks[..|chunks| - 1]);
      var before := WriteAll(w, fs, chunks[..|chunks| - 1]);
      assert fs[w.temp.value] + Concat(chunks[..|chunks| - 1]) + chunks[|chunks| - 1]
          == fs[w.temp.value] + Concat(chunks);
    }
  }

  /** createReader: a reader through the store at the current URL. */
  function CreateReader(cfg: Config, w: Writer, fs: Fs, fault: bool): Result<Reader, StoreError>
  {
    GetReader(cfg, fs, ContentUrl(w), fault)
  }

  /** Before finalize, the newer writer's reader is refused because the
      placeholder's protocol is not the store's; the older writer's null
      URL fails as a ContentIOException. */
  lemma ReaderBeforeFinalize(cfg: Config, fs: Fs, digestType: string)
    ensures CreateReader(cfg, NewFileWriter(digestType), fs, false)
         == Failure(UnsupportedContentUrl(Placeholder))
    ensures CreateReader(cfg, GetWriterInternal(), fs, false) == Failure(ContentIO(None))
  {
    assert Placeholder[0] != StorePrefix[0];
    assert !HasStorePrefix(Placeholder);
  }
}
